=== FILE: README.md ===
# Invoice dashboard data layer, in Dafny

This project models the data-access module of a Next.js invoice dashboard
(`frontend/app/lib/data.ts`). That module reads and writes four tables through an ORM:
users, customers, invoices and revenues. It also holds the `GET` route that seeds those
tables from fixtures. The model keeps the repository's own rules and treats the database
as an immutable value:

- `Store.Db` holds the four tables as sequences, plus the next value of each id sequence.
- `Store.Valid` is the set of constraints the database enforces on every write:
  - customer id, uuid and email are unique;
  - invoice id and the (customer_id, amount, status) key are unique, and every invoice
    refers to an existing customer;
  - user email is unique;
  - each (month, revenue) row appears once.
- A storage fault is a `Store.StoreError`. `Store.Rethrow` is the `catch` block every
  function wraps around its query: any fault becomes one fixed message.
- The page arithmetic is in `Paging`: six rows per page, skip `(page - 1) * 6`, page
  count `ceil(count / 6)`.
- `Invoices` and `Customers` hold the upserts on natural keys, the updates and deletes
  by surrogate id, and the filtered, ordered, paged listings with the per-customer
  paid/pending fold.
- `Dashboard` holds the card totals, where a missing sum reads as 0.
- `Seed` holds the four seeding phases and the route that runs them in order.

Every write returns a new database or a failure. Every write requires `Valid` and
preserves it. The clock (`new Date()`) is the parameter `now`. The ORM's `contains` filter
is the parameter `contains`.

## Model

| member | source | states |
|---|---|---|
| Paging.PageCount | frontend/app/lib/data.ts:153 | the page count is the ceiling of count / 6: `count <= pages*6 < count + 6`, and 0 pages exactly when there are no rows |
| Paging.Page | frontend/app/lib/data.ts:85-91 | a page below 1 is refused; otherwise the page holds at most 6 rows, its k-th row is row `(page-1)*6 + k` of the ordered rows, and it is full unless it reaches the end |
| Paging.PageNonEmptyIffInRange | frontend/app/lib/data.ts:85-91 | for page >= 1, the page has rows exactly when page <= PageCount(rows) |
| Paging.RowOnPage | frontend/app/lib/data.ts:85-91 | every row appears on a page within the page count, at position k % 6 of page k / 6 + 1 |
| Store.Rethrow | frontend/app/lib/data.ts:393-396 | a fault becomes exactly the given message; a success passes through unchanged |
| Store.PaidAndUnpaidCoverTotal | frontend/app/lib/data.ts:309-315 | the "paid" amounts and the amounts of every other status add up to the total of all amounts |
| Sorting.Sort | frontend/app/lib/data.ts:87-89 | the result is sorted by the given total preorder and is a permutation of the input |
| Sorting.LexLeTransitive | frontend/app/lib/data.ts:302-304 | the name order is transitive |
| Invoices.UpsertInvoice | frontend/app/lib/data.ts:162-179 | an existing (customer_id, amount, status) key adds no row and changes only that row's date, to `now` and not the supplied date; a new key appends one row with the next id and the supplied date; the foreign key refuses a new key whose customer does not exist, and only then |
| Invoices.UpsertKeepsKeys | frontend/app/lib/data.ts:162-179 | no key present before an upsert is lost |
| Invoices.UpsertPresentChangesOnlyDates | frontend/app/lib/data.ts:170-172 | upserting a stored key keeps every row's id and key in place |
| Invoices.CreateNewInvoice | frontend/app/lib/data.ts:160-184 | fails with "Failed to create invoice." exactly when the key is new and its customer is missing |
| Invoices.UpdateExistInvoice | frontend/app/lib/data.ts:197-216 | succeeds exactly when the id exists, the new customer exists and no other row has the new key; then only that row's customer, amount and status change, and its date stays; otherwise the error is "Failed to update invoice." |
| Invoices.DeleteExistInvoice | frontend/app/lib/data.ts:218-229 | succeeds exactly when the id exists; then exactly that row is gone and every other row stays; otherwise the error is "Failed to delete invoice." |
| Invoices.FetchInvoiceById | frontend/app/lib/data.ts:186-195 | finds a row exactly when one has that id, and returns that row |
| Invoices.Join | frontend/app/lib/data.ts:68-70 | each invoice is paired, in order, with the customer its foreign key names |
| Invoices.LatestAreNewest | frontend/app/lib/data.ts:63-67 | the first m rows of a date-descending order are a sub-collection that none of the other rows is newer than |
| Invoices.FetchLatestInvoices | frontend/app/lib/data.ts:63-71 | min(5, n) rows in non-increasing date order, each joined with its customer, taken from the table, with no left-out invoice newer than any shown one |
| Invoices.MatchingInvoices | frontend/app/lib/data.ts:95-118 | exactly the stored invoices whose customer name, customer email or status contains `%query%` |
| Invoices.FetchFilteredInvoices | frontend/app/lib/data.ts:83-124 | a page below 1 gives "Failed to fetch invoices."; otherwise at most 6 rows, row k is match `(page-1)*6 + k` in date-descending order, joined with its customer |
| Invoices.FilteredRowsMatch | frontend/app/lib/data.ts:95-118 | every listed row is a stored invoice that matches the query |
| Invoices.FilteredRowsNewestFirst | frontend/app/lib/data.ts:87-89 | a listing page runs newest first |
| Invoices.FilteredPageLength | frontend/app/lib/data.ts:90-91 | a page is full unless it reaches the end of the matches, and empty past it |
| Invoices.FetchInvoicesPages | frontend/app/lib/data.ts:128-153 | the page count of the matching invoices: `count <= pages*6 < count + 6` |
| Invoices.ListingPagesAgree | frontend/app/lib/data.ts:83-158 | the listing and the page count agree: page p >= 1 has rows exactly when p <= the reported page count |
| Customers.InsertCustomer | frontend/app/lib/data.ts:340-345 | the insert fails with a unique violation exactly when the email or uuid is taken; otherwise it appends one row with the next id |
| Customers.CreateNewCustomer | frontend/app/lib/data.ts:331-351 | an existing email adds no row and changes only that row's image url, keeping name and uuid; a new email adds exactly one row; it fails with "Failed to create customer." exactly when the email is new and the uuid is taken |
| Customers.UpdateExistCustomer | frontend/app/lib/data.ts:364-384 | succeeds exactly when the id exists and no other row has the new email or uuid; then only that row changes, and its id stays; otherwise the error is "Failed to update customer." |
| Customers.DeleteExistCustomer | frontend/app/lib/data.ts:386-397 | succeeds exactly when the id exists and no invoice refers to it; then exactly that row is gone; otherwise the error is "Failed to delete customer." |
| Customers.FetchCustomerById | frontend/app/lib/data.ts:353-362 | finds a row exactly when one has that id, and returns that row |
| Customers.FetchCustomers | frontend/app/lib/data.ts:232-243 | every customer exactly once, in ascending name order |
| Customers.MatchingCustomers | frontend/app/lib/data.ts:286-299 | exactly the stored customers whose name or email contains `%query%` |
| Customers.InvoicesOfCustomer | frontend/app/lib/data.ts:284 | exactly the stored invoices whose foreign key names the customer |
| Customers.TallyFrom | frontend/app/lib/data.ts:307-315 | the fold adds to `paid` the amounts whose status is exactly "paid", and to `pending` the amounts of every other status |
| Customers.Summarize | frontend/app/lib/data.ts:306-323 | a listed customer carries only the selected columns (id, name, email, image url, no uuid); its `totalInvoices` is the number of its invoices, `paidSum + pendingSum` is the total of their amounts, and each sum is that of its status class |
| Customers.FetchFilteredCustomers | frontend/app/lib/data.ts:270-329 | a page below 1 gives "Failed to fetch customers."; otherwise row k summarises match `(page-1)*6 + k` in name order, and the page holds `min(6, matches - (page-1)*6)` rows: full unless it reaches the end of the matches, and empty past it |
| Customers.FilteredCustomersMatch | frontend/app/lib/data.ts:274-299 | every listed customer is the selected columns of a stored customer that matches the query |
| Customers.FilteredCustomersByName | frontend/app/lib/data.ts:302-304 | a customer page runs in ascending name order |
| Customers.FetchCustomersPages | frontend/app/lib/data.ts:247-263 | the page count of the matching customers: `count <= pages*6 < count + 6` |
| Customers.CustomerPagesAgree | frontend/app/lib/data.ts:245-304 | page p >= 1 of the customer listing has rows exactly when p <= the reported page count |
| Customers.TallyExample | frontend/app/lib/data.ts:309-319 | 100 "paid" and 50 "pending" give paidSum 100, pendingSum 50 and totalInvoices 2 |
| Users.GetUserByEmail | frontend/app/lib/data.ts:401-411 | finds a user exactly when one has that email, and returns that user |
| Users.UpsertUser | frontend/app/lib/data.ts:419-429 | an existing email adds no row and changes only that user's name; a new email appends the user |
| Dashboard.SumOfStatus | frontend/app/lib/data.ts:25-40 | the aggregate is null exactly when no invoice has the status; otherwise it is the total of those amounts |
| Dashboard.FetchCardData | frontend/app/lib/data.ts:20-50 | the two counts are the table sizes; each card total is the sum of that status's amounts, and 0 when no invoice has the status |
| Dashboard.NoStatusSumsToZero | frontend/app/lib/data.ts:43-44 | when no invoice has the status, the sum of that status is 0 |
| Dashboard.PendingAgreesForFormStatuses | frontend/app/lib/data.ts:309-314 | with only "paid" and "pending" statuses, the listing's not-paid total equals the card's pending total |
| Seed.SeedUsers | frontend/app/lib/data.ts:414-436 | the users phase keeps `Valid`, changes only the user table, and adds at most one row per fixture |
| Seed.SeedUsersCovers | frontend/app/lib/data.ts:414-436 | after the users phase every fixture's email has a row |
| Seed.SeedUsersRerun | frontend/app/lib/data.ts:419-429 | re-running the users phase adds no row and changes only names |
| Seed.SeedCustomer | frontend/app/lib/data.ts:481-492 | an existing uuid changes only that row's name; otherwise one row is inserted, which a taken email refuses |
| Seed.SeedCustomers | frontend/app/lib/data.ts:476-499 | the customers phase keeps `Valid` and changes only the customer table; every logged fault is a unique violation, and a refused fixture adds no row, so rows added plus faults logged are at most the number of fixtures |
| Seed.SeedCustomersCovers | frontend/app/lib/data.ts:476-499 | after the customers phase every fixture's uuid or email has a row |
| Seed.SeedCustomersRerun | frontend/app/lib/data.ts:481-492 | re-running the customers phase adds no row and changes only names |
| Seed.SeedInvoice | frontend/app/lib/data.ts:443-468 | fails with CustomerNotFound exactly when no customer has the fixture's uuid; otherwise the row for (that customer's surrogate id, amount, status) is in place |
| Seed.SeedInvoices | frontend/app/lib/data.ts:438-474 | the invoices phase keeps `Valid` and changes only the invoice table; every logged fault is "Customer not found" for a uuid no customer has, and a refused fixture adds no row, so rows added plus faults logged are at most the number of fixtures |
| Seed.SeedInvoicesCleanIffResolved | frontend/app/lib/data.ts:443-449 | the invoices phase logs nothing exactly when every fixture's customer uuid is stored |
| Seed.SeedInvoicesCovers | frontend/app/lib/data.ts:438-474 | after the invoices phase every fixture whose customer exists has its row under that customer's id |
| Seed.SeedInvoicesRerun | frontend/app/lib/data.ts:451-468 | re-running the invoices phase adds no row and changes only dates |
| Seed.MissingCustomerLogged | frontend/app/lib/data.ts:443-449 | every fixture with a dangling uuid is logged as "Customer not found" |
| Seed.SeedRevenueRow | frontend/app/lib/data.ts:506-518 | the row is present afterwards; a present row changes nothing; at most one row is appended and no other table changes |
| Seed.SeedRevenues | frontend/app/lib/data.ts:501-525 | the revenue phase keeps `Valid`, changes only the revenue table, keeps every existing row in place and appends at most one row per fixture |
| Seed.SeedRevenuesTwice | frontend/app/lib/data.ts:501-525 | running the revenue phase a second time changes nothing |
| Seed.Get | frontend/app/lib/data.ts:557-568 | the phases run users, customers, invoices, revenue; afterwards every user and revenue fixture has its row, every customer fixture's uuid or email has a row, and every invoice fixture whose customer exists has its row; the reply is always 200 with "Database seeded successfully" |
| Seed.GetTwice | frontend/app/lib/data.ts:557-563 | seeding twice adds no row anywhere, changes users and customers only in names, invoices only in dates, and revenue not at all |
| Seed.GetHidesDanglingInvoice | frontend/app/lib/data.ts:557-568 | on an empty database an invoice fixture with an unknown uuid still gets 200, while its invoice is missing and "Customer not found: missing" is only logged |
| Seed.GetReportingFaults | frontend/app/lib/data.ts:557-568 | corrected route: 200 exactly when no phase logged a fault, and then the same reply and database as the route as written; otherwise 500 |
| Seed.ReportedSuccessSeedsEveryInvoice | frontend/app/lib/data.ts:443-449 | under the corrected route a 200 reply means every invoice fixture found its customer and has its row |
| Seed.GetReportsDanglingInvoice | frontend/app/lib/data.ts:564-566 | the dangling-uuid fixture gives 500 under the corrected route |

## Left out

- The ORM and its SQL. Tables are sequences in storage order. `contains` is a parameter,
  because how it treats the literal `%` wrapping and letter case is decided by the library.
- Database collation. Names are ordered by code point (`Sorting.LexLe`). Both sorts are
  stable insertion sorts. The storage layer promises no tie order, so ties may come back in
  another order.
- The concurrency of `Promise.all` in the seed phases. Each phase is a sequential fold over
  its fixtures. A failing fixture leaves the database unchanged and the others still run.
  No atomicity is claimed. Races between two fixtures with the same key are not modelled.
- `Seed.Get` runs each phase to completion before the next. In the source, `Promise.all`
  rejects on the first refused fixture, so the phase returns while its other writes may
  still be in flight. After a refusal, a later phase, or even the 200 reply, may not yet see
  that phase's other writes. For example, `seedInvoices` may log "Customer not found" for a
  customer whose insert has not landed.
- The log of a phase lists every refused fixture. The source only logs the first rejection
  of `Promise.all`. Only "no fault" versus "some fault" matters to the route.
- The 3-second delays and all console logging.
- `formatCurrency`, which is not part of this model and does floating-point division.
  Amounts stay unbounded integer cents. Revenue is an integer. No column width is modelled.
- `seedItems`, which nothing calls.
- The `Response` object beyond status and body. The 500 reply of the corrected route
  carries an empty body instead of the serialised error.
- `Dashboard.FetchRevenue` returns the revenue table as it is and has no contract.
- Argument types. Ids are natural numbers (`Store.Id`) and page numbers are integers. The
  source takes JavaScript numbers, and two behaviours follow from that:
  - a fractional page is accepted: page 1.5 skips 3 rows and shows matches 4 to 9;
  - a NaN or fractional id is refused by the ORM's argument validation. The customer
    edit page passes `parseStringToInt` of a URL segment unchecked
    (frontend/app/dashboard/customers/[id]/edit/page.tsx:9), and the read then fails with
    "Failed to fetch customer.".
  Neither argument-validation refusal is modelled.
- The `catch` branches of `fetchRevenue`, `fetchCardData`, `fetchLatestInvoices`, the two
  page counts, `fetchCustomers`, the by-id reads and `getUserByEmail`. With well-typed
  arguments (see the previous line), connection faults are the only way left to reach
  them, and the model has no connection faults. Their fixed messages are therefore not
  modelled.
- The schema file is not part of this model. Three schema facts are assumed:
  - an invoice's foreign key restricts deleting its customer
    (`Customers.DeleteExistCustomer`);
  - the column default of `invoices.date` is the clock value (`Seed.SeedInvoice`). The
    invoices phase reads one clock value `now` and uses it for every fixture, both as the
    update date and as that default. The source reads the clock once per upsert
    (data.ts:460), and the database fills in the create date itself (data.ts:466);
  - customers' uuid and email, users' email, the invoice triple and the revenue pair are
    unique. The code's upserts select on exactly these columns, which the ORM only allows
    for unique columns.
- A page below 1 gives a negative skip, which the ORM refuses. This is modelled as a
  storage fault, so `fetchFilteredInvoices` and `fetchFilteredCustomers` answer with their
  fixed messages.
- `frontend/app/lib/actions.ts` (form validation, cache invalidation, redirects, cents
  conversion) and the UI files are not part of this model.
- The route's own `catch` (frontend/app/lib/data.ts:564-566) answers 500. No phase ever
  throws to it, because each `seed*` catches its own faults (frontend/app/lib/data.ts:433-435,
  471-473, 496-498, 522-524). `Seed.Get` follows the code. The unreachable 500 is recorded
  under Findings.

## Findings

| source | as written | input that shows it | evidently intended | confidence | as-written member | corrected member |
|---|---|---|---|---|---|---|
| frontend/app/lib/data.ts:557-568 | each seed phase catches and logs its own errors, so GET's catch never runs and the route always replies 200 "Database seeded successfully" | an empty database and one invoice fixture whose customer uuid is "missing": its invoice is not created, "Customer not found: missing" is only logged, and the reply is 200 | a phase that refuses a fixture makes the route reply 500 | medium, not executed | Seed.GetHidesDanglingInvoice | Seed.GetReportingFaults |

=== FILE: customers.dfy ===
/** The customer half of the data-access module: upsert, update, delete and the listings. */
module Customers {
  import opened Wrappers
  import opened Seqs
  import opened Sorting
  import opened Paging
  import opened Store

  const CreateFailed := "Failed to create customer."
  const UpdateFailed := "Failed to update customer."
  const DeleteFailed := "Failed to delete customer."
  const FetchFailed := "Failed to fetch customers."

  /** The fields a customer update writes. */
  datatype CustomerData = CustomerData(name: string, email: string, uuid: string, imageUrl: string)

  /** The customer columns the listing selects: the uuid is not among them. */
  datatype ListedCustomer = ListedCustomer(id: Id, name: string, email: string, imageUrl: string)

  /** A listed customer with its invoices, their count and their paid / not-paid totals in cents. */
  datatype CustomerSummary = CustomerSummary(
    customer: ListedCustomer,
    invoices: seq<Invoice>,
    totalInvoices: nat,
    paidSum: int,
    pendingSum: int)

  predicate EmailPresent(cs: seq<Customer>, email: string) {
    exists k :: 0 <= k < |cs| && cs[k].email == email
  }

  predicate UuidPresent(cs: seq<Customer>, uuid: string) {
    exists k :: 0 <= k < |cs| && cs[k].uuid == uuid
  }

  /** Only the customer table and its id sequence may differ between `db` and `db'`. */
  predicate OnlyCustomersChanged(db: Db, db': Db) {
    && db'.users == db.users
    && db'.invoices == db.invoices
    && db'.revenues == db.revenues
    && db'.nextInvoiceId == db.nextInvoiceId
  }

  // ---- Writes ----------------------------------------------------------------------------

  /** INSERT into customers: a fresh surrogate id; the unique email and uuid columns refuse duplicates. */
  function InsertCustomer(db: Db, uuid: string, name: string, email: string, imageUrl: string): (r: Result<Db, StoreError>)
    requires Valid(db)
    ensures r.Failure? <==> EmailPresent(db.customers, email) || UuidPresent(db.customers, uuid)
    ensures r.Failure? ==> r.error == UniqueViolation
    ensures r.Success? ==>
      && Valid(r.value)
      && OnlyCustomersChanged(db, r.value)
      && r.value.nextCustomerId == db.nextCustomerId + 1
      && r.value.customers == db.customers + [Customer(db.nextCustomerId, uuid, name, email, imageUrl)]
  {
    if CustomerIndexByEmail(db.customers, email).Some? || CustomerIndexByUuid(db.customers, uuid).Some? then
      Failure(UniqueViolation)
    else
      var row := Customer(db.nextCustomerId, uuid, name, email, imageUrl);
      AppendKeepsReferences(db.invoices, db.customers, row, db.nextInvoiceId);
      Success(db.(customers := db.customers + [row], nextCustomerId := db.nextCustomerId + 1))
  }

  /**
   * createNewCustomer: upsert on email. An existing row gets the new image url and keeps its
   * name and uuid; otherwise one row is inserted, which a duplicate uuid makes fail.
   */
  function CreateNewCustomer(db: Db, name: string, email: string, imageUrl: string, uuid: string): (r: Result<Db, string>)
    requires Valid(db)
    ensures r.Failure? <==> !EmailPresent(db.customers, email) && UuidPresent(db.customers, uuid)
    ensures r.Failure? ==> r.error == CreateFailed
    ensures r.Success? ==> Valid(r.value) && OnlyCustomersChanged(db, r.value)
    ensures EmailPresent(db.customers, email) ==>
      && r.Success?
      && r.value.nextCustomerId == db.nextCustomerId
      && |r.value.customers| == |db.customers|
      && forall i :: 0 <= i < |db.customers| ==>
           r.value.customers[i] ==
             if db.customers[i].email == email then db.customers[i].(imageUrl := imageUrl) else db.customers[i]
    ensures !EmailPresent(db.customers, email) && r.Success? ==>
      && r.value.nextCustomerId == db.nextCustomerId + 1
      && r.value.customers == db.customers + [Customer(db.nextCustomerId, uuid, name, email, imageUrl)]
  {
    var stored :=
      match CustomerIndexByEmail(db.customers, email)
      case None => InsertCustomer(db, uuid, name, email, imageUrl)
      case Some(i) =>
        var cs := db.customers[i := db.customers[i].(imageUrl := imageUrl)];
        assert Valid(db.(customers := cs)) by {
          ReplaceCustomerKeepsValid(db, i, db.customers[i].(imageUrl := imageUrl));
        }
        Success(db.(customers := cs));
    Rethrow(stored, CreateFailed)
  }

  /** updateExistCustomer: overwrite name, email, uuid and image url of the row with this id. */
  function UpdateExistCustomer(db: Db, customerId: Id, data: CustomerData): (r: Result<Db, string>)
    requires Valid(db)
    ensures r.Failure? ==> r.error == UpdateFailed
    ensures r.Success? <==>
      && HasCustomer(db.customers, customerId)
      && forall j :: 0 <= j < |db.customers| && db.customers[j].id != customerId ==>
           db.customers[j].email != data.email && db.customers[j].uuid != data.uuid
    ensures r.Success? ==>
      && Valid(r.value)
      && OnlyCustomersChanged(db, r.value)
      && r.value.nextCustomerId == db.nextCustomerId
      && |r.value.customers| == |db.customers|
      && forall i :: 0 <= i < |db.customers| ==>
           r.value.customers[i] ==
             if db.customers[i].id == customerId
             then Customer(customerId, data.uuid, data.name, data.email, data.imageUrl)
             else db.customers[i]
  {
    var stored :=
      match CustomerIndexById(db.customers, customerId)
      case None => Failure(RecordNotFound)
      case Some(i) =>
        if exists j :: 0 <= j < |db.customers| && j != i && db.customers[j].email == data.email then Failure(UniqueViolation)
        else if exists j :: 0 <= j < |db.customers| && j != i && db.customers[j].uuid == data.uuid then Failure(UniqueViolation)
        else
          var row := Customer(customerId, data.uuid, data.name, data.email, data.imageUrl);
          var cs := db.customers[i := row];
          assert Valid(db.(customers := cs)) by {
            ReplaceCustomerKeepsValid(db, i, row);
          }
          Success(db.(customers := cs));
    Rethrow(stored, UpdateFailed)
  }

  predicate Referenced(invs: seq<Invoice>, customerId: Id) {
    exists k :: 0 <= k < |invs| && invs[k].customerId == customerId
  }

  /**
   * deleteExistCustomer: remove the row with this id. A missing id is a fault, and so is a
   * customer that invoices still refer to (the foreign key restricts the delete).
   */
  function DeleteExistCustomer(db: Db, customerId: Id): (r: Result<Db, string>)
    requires Valid(db)
    ensures r.Failure? ==> r.error == DeleteFailed
    ensures r.Success? <==> HasCustomer(db.customers, customerId) && !Referenced(db.invoices, customerId)
    ensures r.Success? ==>
      && Valid(r.value)
      && OnlyCustomersChanged(db, r.value)
      && |r.value.customers| == |db.customers| - 1
      && (forall k :: 0 <= k < |r.value.customers| ==>
            r.value.customers[k].id != customerId && r.value.customers[k] in db.customers)
      && (forall k :: 0 <= k < |db.customers| && db.customers[k].id != customerId ==>
            db.customers[k] in r.value.customers)
  {
    var stored :=
      match CustomerIndexById(db.customers, customerId)
      case None => Failure(RecordNotFound)
      case Some(i) =>
        if Referenced(db.invoices, customerId) then Failure(ForeignKeyViolation)
        else
          var cs := RemoveAt(db.customers, i);
          assert Valid(db.(customers := cs)) by {
            RemoveUnreferencedKeepsReferences(db, i);
          }
          assert forall k :: 0 <= k < |db.customers| && k != i ==> db.customers[k] in cs by {
            RemoveAtKeepsOthers(db.customers, i);
          }
          Success(db.(customers := cs));
    Rethrow(stored, DeleteFailed)
  }

  /** Removing a customer no invoice refers to leaves every reference satisfied. */
  lemma RemoveUnreferencedKeepsReferences(db: Db, i: nat)
    requires Valid(db) && i < |db.customers|
    requires !Referenced(db.invoices, db.customers[i].id)
    ensures InvoicesValid(db.invoices, RemoveAt(db.customers, i), db.nextInvoiceId)
    ensures CustomersValid(RemoveAt(db.customers, i), db.nextCustomerId)
  {
    var cs := RemoveAt(db.customers, i);
    forall n | 0 <= n < |db.invoices|
      ensures HasCustomer(cs, db.invoices[n].customerId)
    {
      var k :| 0 <= k < |db.customers| && db.customers[k].id == db.invoices[n].customerId;
      assert k != i;
      if k < i { assert cs[k].id == db.invoices[n].customerId; } else { assert cs[k - 1].id == db.invoices[n].customerId; }
    }
  }

  // ---- Reads -----------------------------------------------------------------------------

  /** fetchCustomerById: the row with this id, if there is one. */
  function FetchCustomerById(db: Db, customerId: Id): (r: Option<Customer>)
    ensures r.Some? <==> HasCustomer(db.customers, customerId)
    ensures r.Some? ==> r.value in db.customers && r.value.id == customerId
  {
    match CustomerIndexById(db.customers, customerId)
    case Some(i) => Some(db.customers[i])
    case None => None
  }

  /** `orderBy: {name: 'asc'}`. */
  predicate ByName(a: Customer, b: Customer) {
    LexLe(a.name, b.name)
  }

  lemma ByNameIsTotalPreorder()
    ensures TotalPreorder(ByName)
  {
    forall a: Customer, b: Customer
      ensures ByName(a, b) || ByName(b, a)
    {
      LexLeTotal(a.name, b.name);
    }
    forall a: Customer, b: Customer, c: Customer | ByName(a, b) && ByName(b, c)
      ensures ByName(a, c)
    {
      LexLeTransitive(a.name, b.name, c.name);
    }
  }

  function ByNameAsc(cs: seq<Customer>): (r: seq<Customer>)
    ensures SortedBy(r, ByName)
    ensures multiset(r) == multiset(cs)
    ensures |r| == |cs|
  {
    ByNameIsTotalPreorder();
    Sort(cs, ByName)
  }

  /** fetchCustomers: every customer, by name ascending. */
  function FetchCustomers(db: Db): (r: seq<Customer>)
    ensures multiset(r) == multiset(db.customers)
    ensures forall i, j :: 0 <= i < j < |r| ==> LexLe(r[i].name, r[j].name)
  {
    ByNameAsc(db.customers)
  }

  /** The listing's filter: name or email contains the pattern. */
  predicate CustomerMatches(contains: (string, string) -> bool, pattern: string, c: Customer) {
    contains(c.name, pattern) || contains(c.email, pattern)
  }

  /** All customers the query matches, in storage order. */
  function MatchingCustomers(db: Db, query: string, contains: (string, string) -> bool): (r: seq<Customer>)
    ensures multiset(r) <= multiset(db.customers)
    ensures forall k :: 0 <= k < |r| ==> r[k] in db.customers && CustomerMatches(contains, Pattern(query), r[k])
    ensures forall k :: 0 <= k < |db.customers| && CustomerMatches(contains, Pattern(query), db.customers[k]) ==>
      db.customers[k] in r
  {
    Filter(db.customers, (c: Customer) => CustomerMatches(contains, Pattern(query), c))
  }

  /** The matches in listing order, by name. */
  function OrderedCustomerMatches(db: Db, query: string, contains: (string, string) -> bool): (r: seq<Customer>)
    ensures SortedBy(r, ByName)
    ensures multiset(r) == multiset(MatchingCustomers(db, query, contains))
    ensures |r| == |MatchingCustomers(db, query, contains)|
  {
    ByNameAsc(MatchingCustomers(db, query, contains))
  }

  /** The `invoices` relation of a customer: every invoice whose foreign key names it. */
  function InvoicesOfCustomer(db: Db, customerId: Id): (r: seq<Invoice>)
    ensures multiset(r) <= multiset(db.invoices)
    ensures forall k :: 0 <= k < |r| ==> r[k] in db.invoices && r[k].customerId == customerId
    ensures forall k :: 0 <= k < |db.invoices| && db.invoices[k].customerId == customerId ==> db.invoices[k] in r
  {
    Filter(db.invoices, (inv: Invoice) => inv.customerId == customerId)
  }

  /** Running totals of the listing's fold. */
  datatype Totals = Totals(paid: int, pending: int)

  /**
   * The fold over a customer's invoices: an invoice whose status is exactly "paid" adds to
   * `paid`, every other one, whatever its status, adds to `pending`.
   */
  function TallyFrom(acc: Totals, invs: seq<Invoice>): (t: Totals)
    ensures t.paid == acc.paid + TotalAmount(Filter(invs, IsPaid))
    ensures t.pending == acc.pending + TotalAmount(Filter(invs, IsNotPaid))
    decreases |invs|
  {
    if |invs| == 0 then acc
    else
      var x := invs[0];
      var acc' := if IsPaid(x) then acc.(paid := acc.paid + x.amount) else acc.(pending := acc.pending + x.amount);
      var t := TallyFrom(acc', invs[1..]);
      assert ([x] + Filter(invs[1..], IsPaid))[1..] == Filter(invs[1..], IsPaid);
      assert ([x] + Filter(invs[1..], IsNotPaid))[1..] == Filter(invs[1..], IsNotPaid);
      t
  }

  /** The selected columns of a customer row. */
  function Selected(c: Customer): ListedCustomer {
    ListedCustomer(c.id, c.name, c.email, c.imageUrl)
  }

  /** One listing row: the customer's selected columns, its invoices, their count and the paid / pending totals. */
  function Summarize(db: Db, c: Customer): (s: CustomerSummary)
    ensures s.customer == Selected(c)
    ensures s.invoices == InvoicesOfCustomer(db, c.id)
    ensures s.totalInvoices == |s.invoices|
    ensures s.paidSum == TotalAmount(Filter(s.invoices, IsPaid))
    ensures s.pendingSum == TotalAmount(Filter(s.invoices, IsNotPaid))
    ensures s.paidSum + s.pendingSum == TotalAmount(s.invoices)
  {
    var invs := InvoicesOfCustomer(db, c.id);
    var t := TallyFrom(Totals(0, 0), invs);
    PaidAndUnpaidCoverTotal(invs);
    CustomerSummary(Selected(c), invs, |invs|, t.paid, t.pending)
  }

  function SummarizeAll(db: Db, cs: seq<Customer>): seq<CustomerSummary> {
    seq(|cs|, k requires 0 <= k < |cs| => Summarize(db, cs[k]))
  }

  /**
   * fetchFilteredCustomers: page `currentPage` of the matching customers by name, each with
   * its invoice count and paid / pending totals; a page below 1 is refused.
   */
  function FetchFilteredCustomers(db: Db, query: string, currentPage: int, contains: (string, string) -> bool)
    : (r: Result<seq<CustomerSummary>, string>)
    ensures r.Failure? <==> currentPage < 1
    ensures r.Failure? ==> r.error == FetchFailed
    ensures r.Success? ==> |r.value| <= PageSize
    ensures r.Success? ==>
      var ordered := OrderedCustomerMatches(db, query, contains);
      |r.value| == if |ordered| <= Offset(currentPage) then 0 else Min(PageSize, |ordered| - Offset(currentPage))
    ensures r.Success? ==>
      var ordered := OrderedCustomerMatches(db, query, contains);
      forall k :: 0 <= k < |r.value| ==>
        && Offset(currentPage) + k < |ordered|
        && r.value[k] == Summarize(db, ordered[Offset(currentPage) + k])
  {
    match Page(OrderedCustomerMatches(db, query, contains), currentPage)
    case None => Rethrow(Failure(InvalidArgument), FetchFailed)
    case Some(page) => Success(SummarizeAll(db, page))
  }

  /** fetchCustomersPages: how many pages the matching customers fill. */
  function FetchCustomersPages(db: Db, query: string, contains: (string, string) -> bool): (pages: nat)
    ensures var count := |MatchingCustomers(db, query, contains)|;
      count <= pages * PageSize < count + PageSize
    ensures pages == 0 <==> |MatchingCustomers(db, query, contains)| == 0
  {
    PageCount(|MatchingCustomers(db, query, contains)|)
  }

  /** A customer listing page has rows exactly when its number is between 1 and the reported page count. */
  lemma CustomerPagesAgree(db: Db, query: string, currentPage: int, contains: (string, string) -> bool)
    requires currentPage >= 1
    ensures FetchFilteredCustomers(db, query, currentPage, contains).Success?
    ensures |FetchFilteredCustomers(db, query, currentPage, contains).value| > 0
        <==> currentPage <= FetchCustomersPages(db, query, contains)
  {
    PageNonEmptyIffInRange(OrderedCustomerMatches(db, query, contains), currentPage);
  }

  /** Every listed customer is the selection of a stored customer that matches the query. */
  lemma FilteredCustomersMatch(db: Db, query: string, currentPage: int, contains: (string, string) -> bool)
    requires currentPage >= 1
    ensures var r := FetchFilteredCustomers(db, query, currentPage, contains);
      && r.Success?
      && forall k :: 0 <= k < |r.value| ==>
           exists c :: c in db.customers && CustomerMatches(contains, Pattern(query), c) && Selected(c) == r.value[k].customer
  {
    var ordered := OrderedCustomerMatches(db, query, contains);
    var matching := MatchingCustomers(db, query, contains);
    var r := FetchFilteredCustomers(db, query, currentPage, contains);
    forall k | 0 <= k < |r.value|
      ensures exists c :: c in db.customers && CustomerMatches(contains, Pattern(query), c) && Selected(c) == r.value[k].customer
    {
      var x := ordered[Offset(currentPage) + k];
      assert x in multiset(ordered);
      assert x in multiset(matching);
      var t :| 0 <= t < |matching| && matching[t] == x;
      assert x in db.customers && CustomerMatches(contains, Pattern(query), x) && Selected(x) == r.value[k].customer;
    }
  }

  /** A customer listing page runs in name order. */
  lemma FilteredCustomersByName(db: Db, query: string, currentPage: int, contains: (string, string) -> bool)
    requires currentPage >= 1
    ensures var r := FetchFilteredCustomers(db, query, currentPage, contains);
      && r.Success?
      && forall i, j :: 0 <= i < j < |r.value| ==> LexLe(r.value[i].customer.name, r.value[j].customer.name)
  {
    var ordered := OrderedCustomerMatches(db, query, contains);
    var r := FetchFilteredCustomers(db, query, currentPage, contains);
    forall i, j | 0 <= i < j < |r.value|
      ensures LexLe(r.value[i].customer.name, r.value[j].customer.name)
    {
      assert ByName(ordered[Offset(currentPage) + i], ordered[Offset(currentPage) + j]);
    }
  }

  /** Two invoices, 100 paid and 50 pending, give paidSum 100, pendingSum 50 and a count of 2. */
  lemma TallyExample(db: Db, c: Customer)
    requires db.invoices == [Invoice(1, c.id, 100, "paid", 0), Invoice(2, c.id, 50, "pending", 0)]
    ensures Summarize(db, c).paidSum == 100
    ensures Summarize(db, c).pendingSum == 50
    ensures Summarize(db, c).totalInvoices == 2
  {
    var invs := db.invoices;
    var own := (inv: Invoice) => inv.customerId == c.id;
    assert invs[1..] == [invs[1]] && invs[1..][1..] == [];
    assert Filter(invs[1..][1..], own) == [];
    assert Filter(invs[1..], own) == [invs[1]];
    assert InvoicesOfCustomer(db, c.id) == invs;
    assert Filter(invs[1..][1..], IsPaid) == [] && Filter(invs[1..][1..], IsNotPaid) == [];
    assert Filter(invs[1..], IsPaid) == [];
    assert Filter(invs, IsPaid) == [invs[0]];
    assert Filter(invs[1..], IsNotPaid) == [invs[1]];
    assert Filter(invs, IsNotPaid) == [invs[1]];
  }
}

=== FILE: dashboard.dfy ===
/** The dashboard's summary reads: the revenue chart and the four cards. */
module Dashboard {
  import opened Wrappers
  import opened Seqs
  import opened Store

  /** What the cards show; the two totals are in cents (currency formatting is not modelled). */
  datatype CardData = CardData(
    numberOfCustomers: nat,
    numberOfInvoices: nat,
    totalPaidInvoices: int,
    totalPendingInvoices: int)

  /** fetchRevenue: every revenue row, in storage order. */
  function FetchRevenue(db: Db): seq<Revenue> {
    db.revenues
  }

  function WithStatus(invs: seq<Invoice>, status: string): (r: seq<Invoice>)
    ensures forall k :: 0 <= k < |r| ==> r[k].status == status
  {
    Filter(invs, (inv: Invoice) => inv.status == status)
  }

  /** The `_sum` aggregate over invoices with this status; it is null when no invoice has it. */
  function SumOfStatus(invs: seq<Invoice>, status: string): (r: Option<int>)
    ensures r.None? <==> forall k :: 0 <= k < |invs| ==> invs[k].status != status
    ensures r.Some? ==> r.value == TotalAmount(WithStatus(invs, status))
  {
    if IndexOf(invs, (inv: Invoice) => inv.status == status).None? then None
    else Some(TotalAmount(WithStatus(invs, status)))
  }

  /** fetchCardData: the two counts and the paid / pending totals, a missing total read as 0. */
  function FetchCardData(db: Db): (r: CardData)
    ensures r.numberOfCustomers == |db.customers| && r.numberOfInvoices == |db.invoices|
    ensures r.totalPaidInvoices == TotalAmount(WithStatus(db.invoices, "paid"))
    ensures r.totalPendingInvoices == TotalAmount(WithStatus(db.invoices, "pending"))
    ensures (forall k :: 0 <= k < |db.invoices| ==> db.invoices[k].status != "paid") ==> r.totalPaidInvoices == 0
    ensures (forall k :: 0 <= k < |db.invoices| ==> db.invoices[k].status != "pending") ==> r.totalPendingInvoices == 0
  {
    var paid := SumOfStatus(db.invoices, "paid");
    var pending := SumOfStatus(db.invoices, "pending");
    assert paid.None? ==> TotalAmount(WithStatus(db.invoices, "paid")) == 0 by {
      if paid.None? { NoStatusSumsToZero(db.invoices, "paid"); }
    }
    assert pending.None? ==> TotalAmount(WithStatus(db.invoices, "pending")) == 0 by {
      if pending.None? { NoStatusSumsToZero(db.invoices, "pending"); }
    }
    CardData(|db.customers|, |db.invoices|, paid.GetOr(0), pending.GetOr(0))
  }

  lemma {:induction false} NoStatusSumsToZero(invs: seq<Invoice>, status: string)
    requires forall k :: 0 <= k < |invs| ==> invs[k].status != status
    ensures TotalAmount(WithStatus(invs, status)) == 0
  {
    if |WithStatus(invs, status)| > 0 {
      var x := WithStatus(invs, status)[0];
      assert x in invs;
    }
  }

  /**
   * With only the two statuses the invoice form allows, the listing's "everything not paid"
   * total and the card's "pending" total agree.
   */
  lemma PendingAgreesForFormStatuses(invs: seq<Invoice>)
    requires forall k :: 0 <= k < |invs| ==> invs[k].status in {"paid", "pending"}
    ensures TotalAmount(Filter(invs, IsNotPaid)) == TotalAmount(WithStatus(invs, "pending"))
  {
    FilterCongruent(invs, IsNotPaid, (inv: Invoice) => inv.status == "pending");
  }
}

=== FILE: invoices.dfy ===
/** The invoice half of the data-access module: upsert, update, delete and the listings. */
module Invoices {
  import opened Wrappers
  import opened Seqs
  import opened Sorting
  import opened Paging
  import opened Store

  const CreateFailed := "Failed to create invoice."
  const UpdateFailed := "Failed to update invoice."
  const DeleteFailed := "Failed to delete invoice."
  const FetchFailed := "Failed to fetch invoices."

  /** How many invoices the dashboard's "latest" panel shows. */
  const LatestCount: nat := 5

  /** The fields an invoice update writes. */
  datatype InvoiceData = InvoiceData(customerId: Id, amount: int, status: string)

  /** An invoice joined with its customer. */
  datatype InvoiceRow = InvoiceRow(invoice: Invoice, customer: Customer)

  predicate KeyPresent(invs: seq<Invoice>, key: InvoiceKey) {
    exists k :: 0 <= k < |invs| && invs[k].Key() == key
  }

  predicate IdPresent(invs: seq<Invoice>, id: Id) {
    exists k :: 0 <= k < |invs| && invs[k].id == id
  }

  /** Only the invoice table and its id sequence may differ between `db` and `db'`. */
  predicate OnlyInvoicesChanged(db: Db, db': Db) {
    && db'.users == db.users
    && db'.customers == db.customers
    && db'.revenues == db.revenues
    && db'.nextCustomerId == db.nextCustomerId
  }

  // ---- Writes ----------------------------------------------------------------------------

  /**
   * Upsert on the (customer_id, amount, status) key. An existing row keeps everything but
   * its date, which becomes `now`; otherwise one row with the given date is inserted, which
   * the foreign key refuses when the customer does not exist.
   */
  function UpsertInvoice(db: Db, key: InvoiceKey, date: int, now: int): (r: Result<Db, StoreError>)
    requires Valid(db)
    ensures r.Failure? <==> !KeyPresent(db.invoices, key) && !HasCustomer(db.customers, key.customerId)
    ensures r.Failure? ==> r.error == ForeignKeyViolation
    ensures r.Success? ==> Valid(r.value) && OnlyInvoicesChanged(db, r.value)
    ensures KeyPresent(db.invoices, key) ==>
      && r.Success?
      && r.value.nextInvoiceId == db.nextInvoiceId
      && |r.value.invoices| == |db.invoices|
      && forall i :: 0 <= i < |db.invoices| ==>
           r.value.invoices[i] == if db.invoices[i].Key() == key then db.invoices[i].(date := now) else db.invoices[i]
    ensures !KeyPresent(db.invoices, key) && r.Success? ==>
      && r.value.nextInvoiceId == db.nextInvoiceId + 1
      && r.value.invoices == db.invoices + [Invoice(db.nextInvoiceId, key.customerId, key.amount, key.status, date)]
  {
    match InvoiceIndexByKey(db.invoices, key)
    case Some(i) =>
      var row := db.invoices[i].(date := now);
      assert Valid(db.(invoices := db.invoices[i := row])) by {
        ReplaceInvoiceKeepsValid(db, i, row);
      }
      Success(db.(invoices := db.invoices[i := row]))
    case None =>
      if CustomerIndexById(db.customers, key.customerId).None? then Failure(ForeignKeyViolation)
      else
        var row := Invoice(db.nextInvoiceId, key.customerId, key.amount, key.status, date);
        assert Valid(db.(invoices := db.invoices + [row], nextInvoiceId := db.nextInvoiceId + 1)) by {
          AppendInvoiceKeepsValid(db, row);
        }
        Success(db.(invoices := db.invoices + [row], nextInvoiceId := db.nextInvoiceId + 1))
  }

  /** Same rows in the same places, except perhaps for the date. */
  predicate SameInvoicesButDates(a: seq<Invoice>, b: seq<Invoice>) {
    && |a| == |b|
    && forall i :: 0 <= i < |a| ==> a[i].id == b[i].id && a[i].Key() == b[i].Key()
  }

  /** An upsert loses no key: every key present before is present after. */
  lemma UpsertKeepsKeys(db: Db, key: InvoiceKey, date: int, now: int)
    requires Valid(db)
    ensures var r := UpsertInvoice(db, key, date, now);
      r.Success? ==> forall k :: KeyPresent(db.invoices, k) ==> KeyPresent(r.value.invoices, k)
  {
    var r := UpsertInvoice(db, key, date, now);
    if r.Success? {
      forall k | KeyPresent(db.invoices, k)
        ensures KeyPresent(r.value.invoices, k)
      {
        var t :| 0 <= t < |db.invoices| && db.invoices[t].Key() == k;
        assert r.value.invoices[t].Key() == k;
      }
    }
  }

  /** Upserting a key that is already stored adds no row and touches nothing but dates. */
  lemma UpsertPresentChangesOnlyDates(db: Db, key: InvoiceKey, date: int, now: int)
    requires Valid(db) && KeyPresent(db.invoices, key)
    ensures UpsertInvoice(db, key, date, now).Success?
    ensures SameInvoicesButDates(db.invoices, UpsertInvoice(db, key, date, now).value.invoices)
  {
  }

  /** createNewInvoice: the upsert with the supplied date for a new row, any fault reported as one message. */
  function CreateNewInvoice(db: Db, customerId: Id, amount: int, status: string, date: int, now: int): (r: Result<Db, string>)
    requires Valid(db)
    ensures r.Failure? <==> !KeyPresent(db.invoices, InvoiceKey(customerId, amount, status)) && !HasCustomer(db.customers, customerId)
    ensures r.Failure? ==> r.error == CreateFailed
    ensures r.Success? ==> Valid(r.value) && OnlyInvoicesChanged(db, r.value)
  {
    Rethrow(UpsertInvoice(db, InvoiceKey(customerId, amount, status), date, now), CreateFailed)
  }

  /** updateExistInvoice: rewrite customer, amount and status of the row with this id; the date stays. */
  function UpdateExistInvoice(db: Db, invoiceId: Id, data: InvoiceData): (r: Result<Db, string>)
    requires Valid(db)
    ensures r.Failure? ==> r.error == UpdateFailed
    ensures r.Success? <==>
      && IdPresent(db.invoices, invoiceId)
      && HasCustomer(db.customers, data.customerId)
      && forall j :: 0 <= j < |db.invoices| && db.invoices[j].id != invoiceId ==>
           db.invoices[j].Key() != InvoiceKey(data.customerId, data.amount, data.status)
    ensures r.Success? ==>
      && Valid(r.value)
      && OnlyInvoicesChanged(db, r.value)
      && r.value.nextInvoiceId == db.nextInvoiceId
      && |r.value.invoices| == |db.invoices|
      && forall i :: 0 <= i < |db.invoices| ==>
           r.value.invoices[i] ==
             if db.invoices[i].id == invoiceId
             then Invoice(invoiceId, data.customerId, data.amount, data.status, db.invoices[i].date)
             else db.invoices[i]
  {
    var key := InvoiceKey(data.customerId, data.amount, data.status);
    var stored :=
      match InvoiceIndexById(db.invoices, invoiceId)
      case None => Failure(RecordNotFound)
      case Some(i) =>
        if CustomerIndexById(db.customers, data.customerId).None? then Failure(ForeignKeyViolation)
        else if exists j :: 0 <= j < |db.invoices| && j != i && db.invoices[j].Key() == key then Failure(UniqueViolation)
        else
          var row := Invoice(invoiceId, data.customerId, data.amount, data.status, db.invoices[i].date);
          assert Valid(db.(invoices := db.invoices[i := row])) by {
            ReplaceInvoiceKeepsValid(db, i, row);
          }
          Success(db.(invoices := db.invoices[i := row]));
    Rethrow(stored, UpdateFailed)
  }

  /** deleteExistInvoice: remove the row with this id; a missing id is a fault. */
  function DeleteExistInvoice(db: Db, invoiceId: Id): (r: Result<Db, string>)
    requires Valid(db)
    ensures r.Failure? ==> r.error == DeleteFailed
    ensures r.Success? <==> IdPresent(db.invoices, invoiceId)
    ensures r.Success? ==>
      && Valid(r.value)
      && OnlyInvoicesChanged(db, r.value)
      && |r.value.invoices| == |db.invoices| - 1
      && (forall k :: 0 <= k < |r.value.invoices| ==> r.value.invoices[k].id != invoiceId && r.value.invoices[k] in db.invoices)
      && (forall k :: 0 <= k < |db.invoices| && db.invoices[k].id != invoiceId ==> db.invoices[k] in r.value.invoices)
  {
    var stored :=
      match InvoiceIndexById(db.invoices, invoiceId)
      case None => Failure(RecordNotFound)
      case Some(i) =>
        var d := db.(invoices := RemoveAt(db.invoices, i));
        assert
          && Valid(d) && OnlyInvoicesChanged(db, d) && |d.invoices| == |db.invoices| - 1
          && (forall k :: 0 <= k < |d.invoices| ==> d.invoices[k].id != invoiceId && d.invoices[k] in db.invoices)
          && (forall k :: 0 <= k < |db.invoices| && db.invoices[k].id != invoiceId ==> db.invoices[k] in d.invoices)
        by {
          RemoveInvoiceKeepsValid(db, i);
        }
        Success(d);
    Rethrow(stored, DeleteFailed)
  }

  // ---- Reads -----------------------------------------------------------------------------

  /** fetchInvoiceById: the row with this id, if there is one. */
  function FetchInvoiceById(db: Db, invoiceId: Id): (r: Option<Invoice>)
    ensures r.Some? <==> IdPresent(db.invoices, invoiceId)
    ensures r.Some? ==> r.value in db.invoices && r.value.id == invoiceId
  {
    match InvoiceIndexById(db.invoices, invoiceId)
    case Some(i) => Some(db.invoices[i])
    case None => None
  }

  /** The invoice half of each joined row. */
  function InvoicesOfRows(rows: seq<InvoiceRow>): seq<Invoice> {
    seq(|rows|, k requires 0 <= k < |rows| => rows[k].invoice)
  }

  /** Each invoice paired with the customer its foreign key names. */
  function Join(db: Db, invs: seq<Invoice>): (rows: seq<InvoiceRow>)
    requires forall k :: 0 <= k < |invs| ==> HasCustomer(db.customers, invs[k].customerId)
    ensures |rows| == |invs|
    ensures forall k :: 0 <= k < |rows| ==>
      && rows[k].invoice == invs[k]
      && rows[k].customer in db.customers
      && rows[k].customer.id == invs[k].customerId
    ensures InvoicesOfRows(rows) == invs
    decreases |invs|
  {
    if |invs| == 0 then []
    else [InvoiceRow(invs[0], CustomerOf(db.customers, invs[0].customerId).value)] + Join(db, invs[1..])
  }

  /** `orderBy: {date: 'desc'}`. */
  predicate NewerOrSame(a: Invoice, b: Invoice) {
    a.date >= b.date
  }

  function ByDateDesc(invs: seq<Invoice>): (r: seq<Invoice>)
    ensures SortedBy(r, NewerOrSame)
    ensures multiset(r) == multiset(invs)
    ensures |r| == |invs|
  {
    assert TotalPreorder(NewerOrSame);
    Sort(invs, NewerOrSame)
  }

  /** The LatestCount newest invoices, newest first. */
  function Latest(db: Db): (r: seq<Invoice>)
    ensures |r| == Min(LatestCount, |db.invoices|)
    ensures SortedBy(r, NewerOrSame)
    ensures multiset(r) <= multiset(db.invoices)
    ensures forall k :: 0 <= k < |r| ==> r[k] in db.invoices
    ensures forall inv :: inv in multiset(db.invoices) - multiset(r) ==>
      forall k :: 0 <= k < |r| ==> inv.date <= r[k].date
  {
    var sorted := ByDateDesc(db.invoices);
    assert multiset(sorted) == multiset(db.invoices);
    LatestAreNewest(sorted, Min(LatestCount, |sorted|));
    sorted[..Min(LatestCount, |sorted|)]
  }

  /** fetchLatestInvoices: the LatestCount newest invoices, newest first, each with its customer. */
  function FetchLatestInvoices(db: Db): (rows: seq<InvoiceRow>)
    requires Valid(db)
    ensures |rows| == Min(LatestCount, |db.invoices|)
    ensures forall i, j :: 0 <= i < j < |rows| ==> rows[i].invoice.date >= rows[j].invoice.date
    ensures forall k :: 0 <= k < |rows| ==> rows[k].customer in db.customers && rows[k].customer.id == rows[k].invoice.customerId
    ensures multiset(InvoicesOfRows(rows)) <= multiset(db.invoices)
    ensures forall inv :: inv in multiset(db.invoices) - multiset(InvoicesOfRows(rows)) ==>
      forall k :: 0 <= k < |rows| ==> inv.date <= rows[k].invoice.date
  {
    var latest := Latest(db);
    StoredInvoicesHaveCustomers(db, latest);
    Join(db, latest)
  }

  /** The first m rows of a date-descending sequence are a sorted sub-collection none of the rest is newer than. */
  lemma LatestAreNewest(sorted: seq<Invoice>, m: nat)
    requires SortedBy(sorted, NewerOrSame) && m <= |sorted|
    ensures SortedBy(sorted[..m], NewerOrSame)
    ensures multiset(sorted[..m]) <= multiset(sorted)
    ensures forall k :: 0 <= k < m ==> sorted[..m][k] in multiset(sorted)
    ensures forall inv :: inv in multiset(sorted) - multiset(sorted[..m]) ==>
      forall k :: 0 <= k < m ==> inv.date <= sorted[k].date
  {
    assert sorted == sorted[..m] + sorted[m..];
    assert multiset(sorted) - multiset(sorted[..m]) == multiset(sorted[m..]);
    forall inv | inv in multiset(sorted[m..])
      ensures forall k :: 0 <= k < m ==> inv.date <= sorted[k].date
    {
      var t :| 0 <= t < |sorted[m..]| && sorted[m..][t] == inv;
      assert sorted[m + t] == inv;
    }
    forall k | 0 <= k < m
      ensures sorted[..m][k] in multiset(sorted)
    {
      assert sorted[..m][k] == sorted[k];
    }
  }

  /** The listing's filter: customer name, customer email or status contains the pattern. */
  predicate InvoiceMatches(db: Db, contains: (string, string) -> bool, pattern: string, inv: Invoice) {
    match CustomerOf(db.customers, inv.customerId)
    case Some(c) => contains(c.name, pattern) || contains(c.email, pattern) || contains(inv.status, pattern)
    case None => contains(inv.status, pattern)
  }

  /** All invoices the query matches, in storage order. */
  function MatchingInvoices(db: Db, query: string, contains: (string, string) -> bool): (r: seq<Invoice>)
    ensures multiset(r) <= multiset(db.invoices)
    ensures forall k :: 0 <= k < |r| ==> r[k] in db.invoices && InvoiceMatches(db, contains, Pattern(query), r[k])
    ensures forall k :: 0 <= k < |db.invoices| && InvoiceMatches(db, contains, Pattern(query), db.invoices[k]) ==>
      db.invoices[k] in r
  {
    Filter(db.invoices, (inv: Invoice) => InvoiceMatches(db, contains, Pattern(query), inv))
  }

  /** The matches in listing order, newest first. */
  function OrderedMatches(db: Db, query: string, contains: (string, string) -> bool): (r: seq<Invoice>)
    ensures SortedBy(r, NewerOrSame)
    ensures multiset(r) == multiset(MatchingInvoices(db, query, contains))
    ensures |r| == |MatchingInvoices(db, query, contains)|
  {
    ByDateDesc(MatchingInvoices(db, query, contains))
  }

  /**
   * fetchFilteredInvoices: page `currentPage` of the matches, newest first, each with its
   * customer; the storage layer refuses the negative skip of a page below 1.
   */
  function FetchFilteredInvoices(db: Db, query: string, currentPage: int, contains: (string, string) -> bool)
    : (r: Result<seq<InvoiceRow>, string>)
    requires Valid(db)
    ensures r.Failure? <==> currentPage < 1
    ensures r.Failure? ==> r.error == FetchFailed
    ensures r.Success? ==> |r.value| <= PageSize
    ensures r.Success? ==>
      var ordered := OrderedMatches(db, query, contains);
      forall k :: 0 <= k < |r.value| ==>
        && Offset(currentPage) + k < |ordered|
        && r.value[k].invoice == ordered[Offset(currentPage) + k]
    ensures r.Success? ==> forall k :: 0 <= k < |r.value| ==>
      r.value[k].customer in db.customers && r.value[k].customer.id == r.value[k].invoice.customerId
  {
    var ordered := OrderedMatches(db, query, contains);
    match Page(ordered, currentPage)
    case None => Rethrow(Failure(InvalidArgument), FetchFailed)
    case Some(page) =>
      PageRowsStored(db, query, contains, currentPage, page);
      StoredInvoicesHaveCustomers(db, page);
      Success(Join(db, page))
  }

  /** Every row of a listing page is a stored invoice that matches the query. */
  lemma FilteredRowsMatch(db: Db, query: string, currentPage: int, contains: (string, string) -> bool)
    requires Valid(db) && currentPage >= 1
    ensures var r := FetchFilteredInvoices(db, query, currentPage, contains);
      && r.Success?
      && forall k :: 0 <= k < |r.value| ==>
           r.value[k].invoice in db.invoices && InvoiceMatches(db, contains, Pattern(query), r.value[k].invoice)
  {
    var ordered := OrderedMatches(db, query, contains);
    var r := FetchFilteredInvoices(db, query, currentPage, contains);
    forall k | 0 <= k < |r.value|
      ensures r.value[k].invoice in db.invoices && InvoiceMatches(db, contains, Pattern(query), r.value[k].invoice)
    {
      OrderedMatchIsStored(db, query, contains, ordered[Offset(currentPage) + k]);
    }
  }

  /** A listing page runs newest first. */
  lemma FilteredRowsNewestFirst(db: Db, query: string, currentPage: int, contains: (string, string) -> bool)
    requires Valid(db) && currentPage >= 1
    ensures var r := FetchFilteredInvoices(db, query, currentPage, contains);
      && r.Success?
      && forall i, j :: 0 <= i < j < |r.value| ==> r.value[i].invoice.date >= r.value[j].invoice.date
  {
    var ordered := OrderedMatches(db, query, contains);
    var r := FetchFilteredInvoices(db, query, currentPage, contains);
    forall i, j | 0 <= i < j < |r.value|
      ensures r.value[i].invoice.date >= r.value[j].invoice.date
    {
      assert r.value[i].invoice == ordered[Offset(currentPage) + i];
      assert r.value[j].invoice == ordered[Offset(currentPage) + j];
    }
  }

  /** A listing page is full unless it reaches the end of the matches, and empty past it. */
  lemma FilteredPageLength(db: Db, query: string, currentPage: int, contains: (string, string) -> bool)
    requires Valid(db) && currentPage >= 1
    ensures var r := FetchFilteredInvoices(db, query, currentPage, contains);
      var ordered := OrderedMatches(db, query, contains);
      var offset := Offset(currentPage);
      && r.Success?
      && |r.value| == if |ordered| <= offset then 0 else Min(PageSize, |ordered| - offset)
  {
  }

  /** Every listed match is a stored invoice that satisfies the filter. */
  lemma OrderedMatchIsStored(db: Db, query: string, contains: (string, string) -> bool, x: Invoice)
    requires x in OrderedMatches(db, query, contains)
    ensures x in db.invoices && InvoiceMatches(db, contains, Pattern(query), x)
  {
    var matching := MatchingInvoices(db, query, contains);
    assert x in multiset(OrderedMatches(db, query, contains));
    assert x in multiset(matching);
    var t :| 0 <= t < |matching| && matching[t] == x;
  }

  /** Rows of a listing page are stored invoices that match the query. */
  lemma PageRowsMatch(db: Db, query: string, contains: (string, string) -> bool, currentPage: int, page: seq<Invoice>)
    requires Page(OrderedMatches(db, query, contains), currentPage) == Some(page)
    ensures forall k :: 0 <= k < |page| ==>
      page[k] in db.invoices && InvoiceMatches(db, contains, Pattern(query), page[k])
  {
    var ordered := OrderedMatches(db, query, contains);
    forall k | 0 <= k < |page|
      ensures page[k] in db.invoices && InvoiceMatches(db, contains, Pattern(query), page[k])
    {
      assert page[k] == ordered[Offset(currentPage) + k];
      OrderedMatchIsStored(db, query, contains, page[k]);
    }
  }

  /** Rows of a listing page are stored invoices. */
  lemma PageRowsStored(db: Db, query: string, contains: (string, string) -> bool, currentPage: int, page: seq<Invoice>)
    requires Page(OrderedMatches(db, query, contains), currentPage) == Some(page)
    ensures forall k :: 0 <= k < |page| ==> page[k] in db.invoices
  {
    PageRowsMatch(db, query, contains, currentPage, page);
  }

  lemma StoredInvoicesHaveCustomers(db: Db, invs: seq<Invoice>)
    requires Valid(db)
    requires forall k :: 0 <= k < |invs| ==> invs[k] in db.invoices
    ensures forall k :: 0 <= k < |invs| ==> HasCustomer(db.customers, invs[k].customerId)
  {
    forall k | 0 <= k < |invs|
      ensures HasCustomer(db.customers, invs[k].customerId)
    {
      var t :| 0 <= t < |db.invoices| && db.invoices[t] == invs[k];
    }
  }

  /** fetchInvoicesPages: how many pages the matches fill. */
  function FetchInvoicesPages(db: Db, query: string, contains: (string, string) -> bool): (pages: nat)
    ensures var count := |MatchingInvoices(db, query, contains)|;
      count <= pages * PageSize < count + PageSize
    ensures pages == 0 <==> |MatchingInvoices(db, query, contains)| == 0
  {
    PageCount(|MatchingInvoices(db, query, contains)|)
  }

  /** A listing page has rows exactly when its number is between 1 and the reported page count. */
  lemma ListingPagesAgree(db: Db, query: string, currentPage: int, contains: (string, string) -> bool)
    requires Valid(db) && currentPage >= 1
    ensures FetchFilteredInvoices(db, query, currentPage, contains).Success?
    ensures |FetchFilteredInvoices(db, query, currentPage, contains).value| > 0
        <==> currentPage <= FetchInvoicesPages(db, query, contains)
  {
    PageNonEmptyIffInRange(OrderedMatches(db, query, contains), currentPage);
  }
}

=== FILE: paging.dfy ===
/** Page arithmetic shared by the invoice and customer listings. */
module Paging {
  import opened Wrappers

  /** Rows per listing page. */
  const PageSize: nat := 6

  function Min(a: int, b: int): int { if a <= b then a else b }

  /** Number of pages needed to show `count` rows: the ceiling of count / PageSize. */
  function PageCount(count: nat): (pages: nat)
    ensures count <= pages * PageSize < count + PageSize
    ensures pages == 0 <==> count == 0
  {
    (count + PageSize - 1) / PageSize
  }

  /** Rows skipped before page `currentPage` (1-based); negative below page 1. */
  function Offset(currentPage: int): int {
    (currentPage - 1) * PageSize
  }

  /**
   * The rows shown on page `currentPage`: skip Offset(currentPage), take PageSize.
   * A negative skip is refused by the storage layer (None).
   */
  function Page<T>(rows: seq<T>, currentPage: int): (r: Option<seq<T>>)
    ensures r.None? <==> currentPage < 1
    ensures r.Some? ==> |r.value| <= PageSize
    ensures r.Some? ==> |r.value| == if |rows| <= Offset(currentPage) then 0 else Min(PageSize, |rows| - Offset(currentPage))
    ensures r.Some? ==> forall k :: 0 <= k < |r.value| ==> r.value[k] == rows[Offset(currentPage) + k]
  {
    var offset := Offset(currentPage);
    if offset < 0 then None
    else if |rows| <= offset then Some([])
    else Some(rows[offset..Min(offset + PageSize, |rows|)])
  }

  /** A page has rows exactly when its number lies between 1 and PageCount of the row count. */
  lemma PageNonEmptyIffInRange<T>(rows: seq<T>, currentPage: int)
    requires currentPage >= 1
    ensures Page(rows, currentPage).Some?
    ensures |Page(rows, currentPage).value| > 0 <==> currentPage <= PageCount(|rows|)
  {
    var n := |rows|;
    var p := PageCount(n);
    if currentPage <= p {
      assert Offset(currentPage) <= (p - 1) * PageSize;
    } else {
      assert Offset(currentPage) >= p * PageSize;
    }
  }

  /** Every row is shown on a page within the page count: row k sits at position k % PageSize of page k / PageSize + 1. */
  lemma RowOnPage<T>(rows: seq<T>, k: nat)
    requires k < |rows|
    ensures 1 <= k / PageSize + 1 <= PageCount(|rows|)
    ensures Page(rows, k / PageSize + 1).Some?
    ensures k % PageSize < |Page(rows, k / PageSize + 1).value|
    ensures Page(rows, k / PageSize + 1).value[k % PageSize] == rows[k]
  {
    var p := k / PageSize + 1;
    assert Offset(p) == k - k % PageSize;
  }
}

=== FILE: seed.dfy ===
/**
 * The seeding routine: four phases that upsert fixture rows into users, customers, invoices
 * and revenues, in that order. Each phase visits every fixture; a fixture whose write fails
 * leaves the database as it was and its fault is only logged.
 */
module Seed {
  import opened Wrappers
  import opened Seqs
  import opened Store
  import opened Users
  import opened Customers
  import opened Invoices

  /** A customer fixture; `id` is the customer's uuid. */
  datatype CustomerFixture = CustomerFixture(id: string, name: string, email: string, imageUrl: string)

  /** An invoice fixture; `customerId` is the uuid of the customer it belongs to. */
  datatype InvoiceFixture = InvoiceFixture(customerId: string, amount: int, status: string)

  datatype Fixtures = Fixtures(
    users: seq<User>,
    customers: seq<CustomerFixture>,
    invoices: seq<InvoiceFixture>,
    revenue: seq<Revenue>)

  /** What a failing fixture logs: a dangling customer uuid, or a fault of the storage layer. */
  datatype SeedError = CustomerNotFound(uuid: string) | Storage(fault: StoreError) {
    /** The text of the error thrown for a dangling uuid. */
    function Message(): string
      requires CustomerNotFound?
    {
      "Customer not found: " + uuid
    }
  }

  /** The database after a phase, and the faults the phase logged. */
  datatype Phase = Phase(db: Db, logged: seq<SeedError>)

  // ---- Users -----------------------------------------------------------------------------

  /** seedUsers: upsert every user fixture on its email; each adds at most one row. */
  function SeedUsers(db: Db, fs: seq<User>): (r: Db)
    requires Valid(db)
    ensures Valid(r) && OnlyUsersChanged(db, r)
    ensures |db.users| <= |r.users| <= |db.users| + |fs|
    decreases |fs|
  {
    if |fs| == 0 then db else SeedUsers(UpsertUser(db, fs[0]), fs[1..])
  }

  /** Same rows in the same places, except perhaps for the name. */
  predicate SameUsersButNames(a: seq<User>, b: seq<User>) {
    && |a| == |b|
    && forall i :: 0 <= i < |a| ==> a[i].email == b[i].email && a[i].password == b[i].password
  }

  lemma SameUsersKeepEmails(a: seq<User>, b: seq<User>, email: string)
    requires SameUsersButNames(a, b) && EmailTaken(a, email)
    ensures EmailTaken(b, email)
  {
    var k :| 0 <= k < |a| && a[k].email == email;
    assert b[k].email == email;
  }

  lemma UpsertUserKeepsEmails(db: Db, u: User, email: string)
    requires Valid(db) && EmailTaken(db.users, email)
    ensures EmailTaken(UpsertUser(db, u).users, email)
  {
    var r := UpsertUser(db, u);
    var k :| 0 <= k < |db.users| && db.users[k].email == email;
    assert r.users[k].email == email;
  }

  lemma {:induction false} SeedUsersKeepEmails(db: Db, fs: seq<User>, email: string)
    requires Valid(db) && EmailTaken(db.users, email)
    ensures EmailTaken(SeedUsers(db, fs).users, email)
    decreases |fs|
  {
    if |fs| > 0 {
      UpsertUserKeepsEmails(db, fs[0], email);
      SeedUsersKeepEmails(UpsertUser(db, fs[0]), fs[1..], email);
    }
  }

  /** After the users phase every fixture's email has a row. */
  lemma {:induction false} SeedUsersCovers(db: Db, fs: seq<User>)
    requires Valid(db)
    ensures forall k :: 0 <= k < |fs| ==> EmailTaken(SeedUsers(db, fs).users, fs[k].email)
    decreases |fs|
  {
    if |fs| > 0 {
      var d := UpsertUser(db, fs[0]);
      assert EmailTaken(d.users, fs[0].email) by {
        if !EmailTaken(db.users, fs[0].email) {
          assert d.users[|db.users|] == fs[0];
        } else {
          UpsertUserKeepsEmails(db, fs[0], fs[0].email);
        }
      }
      SeedUsersKeepEmails(d, fs[1..], fs[0].email);
      SeedUsersCovers(d, fs[1..]);
      assert forall k :: 1 <= k < |fs| ==> fs[k] == fs[1..][k - 1];
    }
  }

  /** Re-running the users phase adds no row and changes nothing but names. */
  lemma {:induction false} SeedUsersRerun(db: Db, fs: seq<User>)
    requires Valid(db)
    requires forall k :: 0 <= k < |fs| ==> EmailTaken(db.users, fs[k].email)
    ensures SameUsersButNames(db.users, SeedUsers(db, fs).users)
    decreases |fs|
  {
    if |fs| > 0 {
      var d := UpsertUser(db, fs[0]);
      assert SameUsersButNames(db.users, d.users);
      forall k | 0 <= k < |fs[1..]|
        ensures EmailTaken(d.users, fs[1..][k].email)
      {
        SameUsersKeepEmails(db.users, d.users, fs[1..][k].email);
      }
      SeedUsersRerun(d, fs[1..]);
    }
  }

  // ---- Customers -------------------------------------------------------------------------

  /**
   * seedCustomers' upsert on uuid: an existing customer gets the fixture's name and keeps
   * everything else; otherwise the customer is inserted, which a taken email refuses.
   */
  function SeedCustomer(db: Db, f: CustomerFixture): (r: Result<Db, SeedError>)
    requires Valid(db)
    ensures r.Failure? <==> !UuidPresent(db.customers, f.id) && EmailPresent(db.customers, f.email)
    ensures r.Failure? ==> r.error == Storage(UniqueViolation)
    ensures r.Success? ==> Valid(r.value) && OnlyCustomersChanged(db, r.value)
    ensures UuidPresent(db.customers, f.id) ==>
      && r.Success?
      && r.value.nextCustomerId == db.nextCustomerId
      && |r.value.customers| == |db.customers|
      && forall i :: 0 <= i < |db.customers| ==>
           r.value.customers[i] == if db.customers[i].uuid == f.id then db.customers[i].(name := f.name) else db.customers[i]
    ensures !UuidPresent(db.customers, f.id) && r.Success? ==>
      r.value.customers == db.customers + [Customer(db.nextCustomerId, f.id, f.name, f.email, f.imageUrl)]
  {
    match CustomerIndexByUuid(db.customers, f.id)
    case Some(i) =>
      var cs := db.customers[i := db.customers[i].(name := f.name)];
      assert InvoicesValid(db.invoices, cs, db.nextInvoiceId) by {
        SameIdsKeepReferences(db.invoices, db.customers, cs, db.nextInvoiceId);
      }
      Success(db.(customers := cs))
    case None =>
      match InsertCustomer(db, f.id, f.name, f.email, f.imageUrl)
      case Success(d) => Success(d)
      case Failure(e) => Failure(Storage(e))
  }

  /**
   * seedCustomers: upsert every customer fixture on its uuid. A refused fixture leaves the
   * database as it was and logs its unique violation; each other fixture adds at most one row.
   */
  function SeedCustomers(db: Db, fs: seq<CustomerFixture>): (p: Phase)
    requires Valid(db)
    ensures Valid(p.db) && OnlyCustomersChanged(db, p.db)
    ensures forall e :: e in p.logged ==> e == Storage(UniqueViolation)
    ensures |db.customers| <= |p.db.customers|
    ensures |p.db.customers| + |p.logged| <= |db.customers| + |fs|
    decreases |fs|
  {
    if |fs| == 0 then Phase(db, [])
    else
      match SeedCustomer(db, fs[0])
      case Success(d) => SeedCustomers(d, fs[1..])
      case Failure(e) =>
        var rest := SeedCustomers(db, fs[1..]);
        Phase(rest.db, [e] + rest.logged)
  }

  /** A customer fixture is in place when its uuid has a row, or its email does (and then it cannot be inserted). */
  predicate CustomerSeeded(cs: seq<Customer>, f: CustomerFixture) {
    UuidPresent(cs, f.id) || EmailPresent(cs, f.email)
  }

  /** Same rows in the same places, except perhaps for the name. */
  predicate SameCustomersButNames(a: seq<Customer>, b: seq<Customer>) {
    && |a| == |b|
    && forall i :: 0 <= i < |a| ==>
         a[i].id == b[i].id && a[i].uuid == b[i].uuid && a[i].email == b[i].email && a[i].imageUrl == b[i].imageUrl
  }

  lemma SameCustomersKeepSeeded(a: seq<Customer>, b: seq<Customer>, f: CustomerFixture)
    requires SameCustomersButNames(a, b) && CustomerSeeded(a, f)
    ensures CustomerSeeded(b, f)
  {
    if UuidPresent(a, f.id) {
      var k :| 0 <= k < |a| && a[k].uuid == f.id;
      assert b[k].uuid == f.id;
    } else {
      var k :| 0 <= k < |a| && a[k].email == f.email;
      assert b[k].email == f.email;
    }
  }

  /** Every step of the customers phase keeps the customers already in place. */
  lemma SeedCustomerKeepsSeeded(db: Db, f: CustomerFixture, g: CustomerFixture)
    requires Valid(db) && CustomerSeeded(db.customers, g)
    ensures SeedCustomer(db, f).Success? ==> CustomerSeeded(SeedCustomer(db, f).value.customers, g)
  {
    var r := SeedCustomer(db, f);
    if r.Success? {
      var cs := r.value.customers;
      if UuidPresent(db.customers, g.id) {
        var k :| 0 <= k < |db.customers| && db.customers[k].uuid == g.id;
        assert cs[k].uuid == g.id;
      } else {
        var k :| 0 <= k < |db.customers| && db.customers[k].email == g.email;
        assert cs[k].email == g.email;
      }
    }
  }

  lemma {:induction false} SeedCustomersKeepSeeded(db: Db, fs: seq<CustomerFixture>, g: CustomerFixture)
    requires Valid(db) && CustomerSeeded(db.customers, g)
    ensures CustomerSeeded(SeedCustomers(db, fs).db.customers, g)
    decreases |fs|
  {
    if |fs| > 0 {
      SeedCustomerKeepsSeeded(db, fs[0], g);
      match SeedCustomer(db, fs[0])
      case Success(d) => SeedCustomersKeepSeeded(d, fs[1..], g);
      case Failure(_) => SeedCustomersKeepSeeded(db, fs[1..], g);
    }
  }

  /** One step of the customers phase puts its own fixture in place. */
  lemma SeedCustomerPlacesFixture(db: Db, f: CustomerFixture)
    requires Valid(db)
    ensures var r := SeedCustomer(db, f);
      CustomerSeeded(if r.Success? then r.value.customers else db.customers, f)
  {
    var r := SeedCustomer(db, f);
    if r.Success? && !UuidPresent(db.customers, f.id) {
      assert r.value.customers[|db.customers|].uuid == f.id;
    }
  }

  /** After the customers phase every fixture's uuid or email has a row. */
  lemma {:induction false} SeedCustomersCovers(db: Db, fs: seq<CustomerFixture>)
    requires Valid(db)
    ensures forall k :: 0 <= k < |fs| ==> CustomerSeeded(SeedCustomers(db, fs).db.customers, fs[k])
    decreases |fs|
  {
    if |fs| > 0 {
      var f := fs[0];
      var r := SeedCustomer(db, f);
      var next := if r.Success? then r.value else db;
      var last := SeedCustomers(next, fs[1..]).db;
      assert SeedCustomers(db, fs).db == last;
      forall k | 0 <= k < |fs|
        ensures CustomerSeeded(last.customers, fs[k])
      {
        if k == 0 {
          SeedCustomerPlacesFixture(db, f);
          SeedCustomersKeepSeeded(next, fs[1..], f);
        } else {
          SeedCustomersCovers(next, fs[1..]);
          assert fs[k] == fs[1..][k - 1];
        }
      }
    }
  }

  /** Re-running the customers phase adds no row and changes nothing but names. */
  lemma {:induction false} SeedCustomersRerun(db: Db, fs: seq<CustomerFixture>)
    requires Valid(db)
    requires forall k :: 0 <= k < |fs| ==> CustomerSeeded(db.customers, fs[k])
    ensures SameCustomersButNames(db.customers, SeedCustomers(db, fs).db.customers)
    decreases |fs|
  {
    if |fs| > 0 {
      var r := SeedCustomer(db, fs[0]);
      var next := if r.Success? then r.value else db;
      assert SameCustomersButNames(db.customers, next.customers);
      assert SeedCustomers(db, fs).db == SeedCustomers(next, fs[1..]).db;
      forall k | 0 <= k < |fs[1..]|
        ensures CustomerSeeded(next.customers, fs[1..][k])
      {
        SameCustomersKeepSeeded(db.customers, next.customers, fs[1..][k]);
      }
      SeedCustomersRerun(next, fs[1..]);
    }
  }

  // ---- Invoices --------------------------------------------------------------------------

  /**
   * seedInvoices' step: resolve the fixture's customer uuid to a surrogate id, failing when no
   * customer has it, then upsert on (id, amount, status); a new row gets the column default
   * date, the clock value `now`, and so does the date an existing row is updated with.
   */
  function SeedInvoice(db: Db, f: InvoiceFixture, now: int): (r: Result<Db, SeedError>)
    requires Valid(db)
    ensures r.Failure? <==> !UuidPresent(db.customers, f.customerId)
    ensures r.Failure? ==> r.error == CustomerNotFound(f.customerId)
    ensures r.Success? ==> Valid(r.value) && OnlyInvoicesChanged(db, r.value)
    ensures r.Success? ==> |db.invoices| <= |r.value.invoices| <= |db.invoices| + 1
    ensures r.Success? ==>
      exists i :: 0 <= i < |db.customers| && db.customers[i].uuid == f.customerId &&
        KeyPresent(r.value.invoices, InvoiceKey(db.customers[i].id, f.amount, f.status))
  {
    match CustomerIndexByUuid(db.customers, f.customerId)
    case None => Failure(CustomerNotFound(f.customerId))
    case Some(i) =>
      var key := InvoiceKey(db.customers[i].id, f.amount, f.status);
      assert HasCustomer(db.customers, key.customerId);
      var d := UpsertInvoice(db, key, now, now).value;
      assert KeyPresent(d.invoices, key) by {
        if KeyPresent(db.invoices, key) {
          var k :| 0 <= k < |db.invoices| && db.invoices[k].Key() == key;
          assert d.invoices[k].Key() == key;
        } else {
          assert d.invoices[|db.invoices|].Key() == key;
        }
      }
      Success(d)
  }

  /**
   * seedInvoices: upsert every invoice fixture under its customer's surrogate id. A fixture
   * whose customer uuid is missing leaves the database as it was and logs CustomerNotFound;
   * each other fixture adds at most one row.
   */
  function SeedInvoices(db: Db, fs: seq<InvoiceFixture>, now: int): (p: Phase)
    requires Valid(db)
    ensures Valid(p.db) && OnlyInvoicesChanged(db, p.db)
    ensures forall e :: e in p.logged ==> e.CustomerNotFound? && !UuidPresent(db.customers, e.uuid)
    ensures |db.invoices| <= |p.db.invoices|
    ensures |p.db.invoices| + |p.logged| <= |db.invoices| + |fs|
    decreases |fs|
  {
    if |fs| == 0 then Phase(db, [])
    else
      match SeedInvoice(db, fs[0], now)
      case Success(d) => SeedInvoices(d, fs[1..], now)
      case Failure(e) =>
        var rest := SeedInvoices(db, fs[1..], now);
        Phase(rest.db, [e] + rest.logged)
  }

  /** An invoice fixture is in place when its customer is missing, or the customer's row has its key. */
  predicate InvoiceSeeded(db: Db, f: InvoiceFixture) {
    match CustomerIndexByUuid(db.customers, f.customerId)
    case None => true
    case Some(i) => KeyPresent(db.invoices, InvoiceKey(db.customers[i].id, f.amount, f.status))
  }

  /** Under the same customers, a write that keeps every existing key keeps every invoice fixture in place. */
  lemma KeysKeptKeepSeeded(db: Db, d: Db, f: InvoiceFixture)
    requires d.customers == db.customers
    requires forall key :: KeyPresent(db.invoices, key) ==> KeyPresent(d.invoices, key)
    requires InvoiceSeeded(db, f)
    ensures InvoiceSeeded(d, f)
  {
  }

  /** One step of the invoices phase loses no key, and changes only dates when its own key is in place. */
  lemma SeedInvoiceStep(db: Db, f: InvoiceFixture, now: int)
    requires Valid(db)
    ensures var r := SeedInvoice(db, f, now);
      var next := if r.Success? then r.value else db;
      && (forall key :: KeyPresent(db.invoices, key) ==> KeyPresent(next.invoices, key))
      && (InvoiceSeeded(db, f) ==> SameInvoicesButDates(db.invoices, next.invoices))
  {
    var r := SeedInvoice(db, f, now);
    if r.Success? {
      var i := CustomerIndexByUuid(db.customers, f.customerId).value;
      var fkey := InvoiceKey(db.customers[i].id, f.amount, f.status);
      assert r.value == UpsertInvoice(db, fkey, now, now).value;
      UpsertKeepsKeys(db, fkey, now, now);
      if InvoiceSeeded(db, f) {
        UpsertPresentChangesOnlyDates(db, fkey, now, now);
      }
    }
  }

  lemma {:induction false} SeedInvoicesKeepSeeded(db: Db, fs: seq<InvoiceFixture>, now: int, g: InvoiceFixture)
    requires Valid(db) && InvoiceSeeded(db, g)
    ensures InvoiceSeeded(SeedInvoices(db, fs, now).db, g)
    decreases |fs|
  {
    if |fs| > 0 {
      var r := SeedInvoice(db, fs[0], now);
      var next := if r.Success? then r.value else db;
      SeedInvoiceStep(db, fs[0], now);
      KeysKeptKeepSeeded(db, next, g);
      assert SeedInvoices(db, fs, now).db == SeedInvoices(next, fs[1..], now).db;
      SeedInvoicesKeepSeeded(next, fs[1..], now, g);
    }
  }

  /** One step of the invoices phase puts its own fixture in place. */
  lemma SeedInvoicePlacesFixture(db: Db, f: InvoiceFixture, now: int)
    requires Valid(db)
    ensures var r := SeedInvoice(db, f, now);
      InvoiceSeeded(if r.Success? then r.value else db, f)
  {
    var r := SeedInvoice(db, f, now);
    if r.Success? {
      var i := CustomerIndexByUuid(db.customers, f.customerId).value;
      var j :| 0 <= j < |db.customers| && db.customers[j].uuid == f.customerId &&
        KeyPresent(r.value.invoices, InvoiceKey(db.customers[j].id, f.amount, f.status));
      assert i == j;
    }
  }

  /** After the invoices phase every fixture whose customer exists has its row, under that customer's surrogate id. */
  lemma {:induction false} SeedInvoicesCovers(db: Db, fs: seq<InvoiceFixture>, now: int)
    requires Valid(db)
    ensures forall k :: 0 <= k < |fs| ==> InvoiceSeeded(SeedInvoices(db, fs, now).db, fs[k])
    decreases |fs|
  {
    if |fs| > 0 {
      var f := fs[0];
      var r := SeedInvoice(db, f, now);
      var next := if r.Success? then r.value else db;
      var last := SeedInvoices(next, fs[1..], now).db;
      assert SeedInvoices(db, fs, now).db == last;
      forall k | 0 <= k < |fs|
        ensures InvoiceSeeded(last, fs[k])
      {
        if k == 0 {
          SeedInvoicePlacesFixture(db, f, now);
          SeedInvoicesKeepSeeded(next, fs[1..], now, f);
        } else {
          SeedInvoicesCovers(next, fs[1..], now);
          assert fs[k] == fs[1..][k - 1];
        }
      }
    }
  }

  /** Re-running the invoices phase adds no row and changes nothing but dates. */
  lemma {:induction false} SeedInvoicesRerun(db: Db, fs: seq<InvoiceFixture>, now: int)
    requires Valid(db)
    requires forall k :: 0 <= k < |fs| ==> InvoiceSeeded(db, fs[k])
    ensures SameInvoicesButDates(db.invoices, SeedInvoices(db, fs, now).db.invoices)
    decreases |fs|
  {
    if |fs| > 0 {
      var r := SeedInvoice(db, fs[0], now);
      var next := if r.Success? then r.value else db;
      SeedInvoiceStep(db, fs[0], now);
      assert SeedInvoices(db, fs, now).db == SeedInvoices(next, fs[1..], now).db;
      forall k | 0 <= k < |fs[1..]|
        ensures InvoiceSeeded(next, fs[1..][k])
      {
        KeysKeptKeepSeeded(db, next, fs[1..][k]);
      }
      SeedInvoicesRerun(next, fs[1..], now);
    }
  }

  /** A fixture whose customer uuid has no row is logged as "Customer not found". */
  lemma {:induction false} MissingCustomerLogged(db: Db, fs: seq<InvoiceFixture>, now: int)
    requires Valid(db)
    ensures forall k :: 0 <= k < |fs| && !UuidPresent(db.customers, fs[k].customerId) ==>
      CustomerNotFound(fs[k].customerId) in SeedInvoices(db, fs, now).logged
    decreases |fs|
  {
    if |fs| > 0 {
      var r := SeedInvoice(db, fs[0], now);
      var next := if r.Success? then r.value else db;
      var rest := SeedInvoices(next, fs[1..], now);
      assert next.customers == db.customers;
      MissingCustomerLogged(next, fs[1..], now);
      forall k | 0 <= k < |fs| && !UuidPresent(db.customers, fs[k].customerId)
        ensures CustomerNotFound(fs[k].customerId) in SeedInvoices(db, fs, now).logged
      {
        if k == 0 {
          assert SeedInvoices(db, fs, now).logged == [r.error] + rest.logged;
        } else {
          assert fs[k] == fs[1..][k - 1];
          assert CustomerNotFound(fs[k].customerId) in rest.logged;
        }
      }
    }
  }

  lemma ResolvedTail(cs: seq<Customer>, fs: seq<InvoiceFixture>)
    requires |fs| > 0 && UuidPresent(cs, fs[0].customerId)
    ensures (forall k :: 0 <= k < |fs| ==> UuidPresent(cs, fs[k].customerId)) <==>
      (forall k :: 0 <= k < |fs[1..]| ==> UuidPresent(cs, fs[1..][k].customerId))
  {
    assert forall k :: 1 <= k < |fs| ==> fs[k] == fs[1..][k - 1];
  }

  /** The invoices phase logs nothing exactly when every fixture's customer uuid is stored. */
  lemma {:induction false} SeedInvoicesCleanIffResolved(db: Db, fs: seq<InvoiceFixture>, now: int)
    requires Valid(db)
    ensures SeedInvoices(db, fs, now).logged == [] <==>
      forall k :: 0 <= k < |fs| ==> UuidPresent(db.customers, fs[k].customerId)
    decreases |fs|
  {
    if |fs| > 0 {
      var r := SeedInvoice(db, fs[0], now);
      if r.Failure? {
        assert SeedInvoices(db, fs, now).logged[0] == r.error;
      } else {
        var d := r.value;
        assert d.customers == db.customers;
        assert SeedInvoices(db, fs, now) == SeedInvoices(d, fs[1..], now);
        SeedInvoicesCleanIffResolved(d, fs[1..], now);
        ResolvedTail(db.customers, fs);
      }
    }
  }

  // ---- Revenue ---------------------------------------------------------------------------

  /** seedRevenue's upsert on (month, revenue) with an empty update: insert the row unless it is there. */
  function SeedRevenueRow(db: Db, r: Revenue): (d: Db)
    requires Valid(db)
    ensures Valid(d)
    ensures d.users == db.users && d.customers == db.customers && d.invoices == db.invoices
    ensures d.nextCustomerId == db.nextCustomerId && d.nextInvoiceId == db.nextInvoiceId
    ensures r in d.revenues
    ensures r in db.revenues ==> d.revenues == db.revenues
    ensures |db.revenues| <= |d.revenues| <= |db.revenues| + 1 && d.revenues[..|db.revenues|] == db.revenues
  {
    if r in db.revenues then db else db.(revenues := db.revenues + [r])
  }

  /** seedRevenue: insert every revenue fixture row that is not already there. */
  function SeedRevenues(db: Db, fs: seq<Revenue>): (d: Db)
    requires Valid(db)
    ensures Valid(d)
    ensures |db.revenues| <= |d.revenues| <= |db.revenues| + |fs|
    ensures d.revenues[..|db.revenues|] == db.revenues
    ensures d.users == db.users && d.customers == db.customers && d.invoices == db.invoices
    ensures d.nextCustomerId == db.nextCustomerId && d.nextInvoiceId == db.nextInvoiceId
    decreases |fs|
  {
    if |fs| == 0 then db else SeedRevenues(SeedRevenueRow(db, fs[0]), fs[1..])
  }

  lemma {:induction false} SeedRevenuesKeepRows(db: Db, fs: seq<Revenue>, r: Revenue)
    requires Valid(db) && r in db.revenues
    ensures r in SeedRevenues(db, fs).revenues
    decreases |fs|
  {
    if |fs| > 0 {
      SeedRevenuesKeepRows(SeedRevenueRow(db, fs[0]), fs[1..], r);
    }
  }

  /** After the revenue phase every fixture row is in the table. */
  lemma {:induction false} SeedRevenuesCovers(db: Db, fs: seq<Revenue>)
    requires Valid(db)
    ensures forall k :: 0 <= k < |fs| ==> fs[k] in SeedRevenues(db, fs).revenues
    decreases |fs|
  {
    if |fs| > 0 {
      var d := SeedRevenueRow(db, fs[0]);
      SeedRevenuesKeepRows(d, fs[1..], fs[0]);
      SeedRevenuesCovers(d, fs[1..]);
      assert forall k :: 1 <= k < |fs| ==> fs[k] == fs[1..][k - 1];
    }
  }

  /** With every fixture row already present, the revenue phase changes nothing. */
  lemma {:induction false} SeedRevenuesRerun(db: Db, fs: seq<Revenue>)
    requires Valid(db)
    requires forall k :: 0 <= k < |fs| ==> fs[k] in db.revenues
    ensures SeedRevenues(db, fs) == db
    decreases |fs|
  {
    if |fs| > 0 {
      SeedRevenuesRerun(db, fs[1..]);
    }
  }

  /** Running the revenue phase twice leaves the revenue table as the first run left it. */
  lemma SeedRevenuesTwice(db: Db, fs: seq<Revenue>)
    requires Valid(db)
    ensures SeedRevenues(SeedRevenues(db, fs), fs) == SeedRevenues(db, fs)
  {
    SeedRevenuesCovers(db, fs);
    SeedRevenuesRerun(SeedRevenues(db, fs), fs);
  }

  // ---- The route -------------------------------------------------------------------------

  const SeededMessage := "Database seeded successfully"

  /** The route's reply, with the database it leaves and the faults the phases logged. */
  datatype Response = Response(status: nat, body: string, db: Db, logged: seq<SeedError>)

  /**
   * GET as written: users, customers, invoices, revenue, in that order. Every phase catches
   * and logs its own faults, so the handler's error branch is unreachable and the reply is
   * always the success message, however many fixtures were refused.
   */
  function Get(db: Db, fx: Fixtures, now: int): (r: Response)
    requires Valid(db)
    ensures Valid(r.db)
    ensures r.status == 200 && r.body == SeededMessage
    ensures forall k :: 0 <= k < |fx.users| ==> EmailTaken(r.db.users, fx.users[k].email)
    ensures forall k :: 0 <= k < |fx.customers| ==> CustomerSeeded(r.db.customers, fx.customers[k])
    ensures forall k :: 0 <= k < |fx.invoices| ==> InvoiceSeeded(r.db, fx.invoices[k])
    ensures forall k :: 0 <= k < |fx.revenue| ==> fx.revenue[k] in r.db.revenues
  {
    var u := SeedUsers(db, fx.users);
    var c := SeedCustomers(u, fx.customers);
    var i := SeedInvoices(c.db, fx.invoices, now);
    var v := SeedRevenues(i.db, fx.revenue);
    assert forall k :: 0 <= k < |fx.users| ==> EmailTaken(v.users, fx.users[k].email) by {
      SeedUsersCovers(db, fx.users);
    }
    assert forall k :: 0 <= k < |fx.customers| ==> CustomerSeeded(v.customers, fx.customers[k]) by {
      SeedCustomersCovers(u, fx.customers);
    }
    assert forall k :: 0 <= k < |fx.invoices| ==> InvoiceSeeded(v, fx.invoices[k]) by {
      SeedInvoicesCovers(c.db, fx.invoices, now);
    }
    assert forall k :: 0 <= k < |fx.revenue| ==> fx.revenue[k] in v.revenues by {
      SeedRevenuesCovers(i.db, fx.revenue);
    }
    Response(200, SeededMessage, v, c.logged + i.logged)
  }

  /** Valid customer tables with the same uuids in the same places resolve a uuid to the same row. */
  lemma SameCustomersSameUuidIndex(a: seq<Customer>, b: seq<Customer>, nextA: Id, nextB: Id, uuid: string)
    requires CustomersValid(a, nextA) && CustomersValid(b, nextB) && SameCustomersButNames(a, b)
    ensures CustomerIndexByUuid(a, uuid) == CustomerIndexByUuid(b, uuid)
  {
    var ia := CustomerIndexByUuid(a, uuid);
    var ib := CustomerIndexByUuid(b, uuid);
    if ia.Some? {
      assert b[ia.value].uuid == uuid;
    }
  }

  lemma SameCustomersKeepInvoiceSeeded(db: Db, d: Db, f: InvoiceFixture)
    requires Valid(db) && Valid(d)
    requires SameCustomersButNames(db.customers, d.customers) && d.invoices == db.invoices
    requires InvoiceSeeded(db, f)
    ensures InvoiceSeeded(d, f)
  {
    SameCustomersSameUuidIndex(db.customers, d.customers, db.nextCustomerId, d.nextCustomerId, f.customerId);
  }

  /**
   * Seeding twice: the second run adds no row to any table, changes user and customer rows
   * only in their names, invoice rows only in their dates, and leaves revenue as it was.
   */
  lemma GetTwice(db: Db, fx: Fixtures, now1: int, now2: int)
    requires Valid(db)
    ensures var first := Get(db, fx, now1).db;
      var second := Get(first, fx, now2).db;
      && SameUsersButNames(first.users, second.users)
      && SameCustomersButNames(first.customers, second.customers)
      && SameInvoicesButDates(first.invoices, second.invoices)
      && second.revenues == first.revenues
  {
    var first := Get(db, fx, now1).db;
    var u := SeedUsers(first, fx.users);
    SeedUsersRerun(first, fx.users);
    var c := SeedCustomers(u, fx.customers);
    SeedCustomersRerun(u, fx.customers);
    forall k | 0 <= k < |fx.invoices|
      ensures InvoiceSeeded(c.db, fx.invoices[k])
    {
      SameCustomersKeepInvoiceSeeded(first, c.db, fx.invoices[k]);
    }
    var i := SeedInvoices(c.db, fx.invoices, now2);
    SeedInvoicesRerun(c.db, fx.invoices, now2);
    SeedRevenuesRerun(i.db, fx.revenue);
  }

  /**
   * GET with the phases' faults reaching the handler, as its error branch intends: the first
   * phase that logs a fault ends the run with status 500, and later phases do not run.
   */
  function GetReportingFaults(db: Db, fx: Fixtures, now: int): (r: Response)
    requires Valid(db)
    ensures Valid(r.db)
    ensures r.status == 200 || r.status == 500
    ensures r.status == 200 <==> r.logged == []
    ensures r.status == 200 ==> r == Get(db, fx, now)
  {
    var u := SeedUsers(db, fx.users);
    var c := SeedCustomers(u, fx.customers);
    if c.logged != [] then Response(500, "", c.db, c.logged)
    else
      var i := SeedInvoices(c.db, fx.invoices, now);
      if i.logged != [] then Response(500, "", i.db, i.logged)
      else
        Response(200, SeededMessage, SeedRevenues(i.db, fx.revenue), [])
  }

  /** Under the corrected route a 200 reply means every invoice fixture found its customer and has its row. */
  lemma ReportedSuccessSeedsEveryInvoice(db: Db, fx: Fixtures, now: int)
    requires Valid(db)
    ensures var r := GetReportingFaults(db, fx, now);
      r.status == 200 ==> forall k :: 0 <= k < |fx.invoices| ==>
        UuidPresent(r.db.customers, fx.invoices[k].customerId) && InvoiceSeeded(r.db, fx.invoices[k])
  {
    var c := SeedCustomers(SeedUsers(db, fx.users), fx.customers);
    MissingCustomerLogged(c.db, fx.invoices, now);
  }

  /** A dangling invoice fixture: GET as written still answers 200, with the invoice missing. */
  lemma GetHidesDanglingInvoice(now: int)
    ensures var fx := Fixtures([], [], [InvoiceFixture("missing", 100, "paid")], []);
      var r := Get(EmptyDb(), fx, now);
      && r.status == 200
      && r.body == SeededMessage
      && r.db.invoices == []
      && r.logged == [CustomerNotFound("missing")]
      && r.logged[0].Message() == "Customer not found: missing"
  {
    var fx := Fixtures([], [], [InvoiceFixture("missing", 100, "paid")], []);
    var db := EmptyDb();
    assert SeedUsers(db, fx.users) == db;
    assert SeedCustomers(db, fx.customers) == Phase(db, []);
    assert SeedInvoice(db, fx.invoices[0], now) == Failure(CustomerNotFound("missing"));
    assert SeedInvoices(db, fx.invoices[1..], now) == Phase(db, []);
    assert SeedInvoices(db, fx.invoices, now) == Phase(db, [CustomerNotFound("missing")]);
  }

  /** The same fixture under the corrected route: the fault reaches the handler and the reply is 500. */
  lemma GetReportsDanglingInvoice(now: int)
    ensures var fx := Fixtures([], [], [InvoiceFixture("missing", 100, "paid")], []);
      GetReportingFaults(EmptyDb(), fx, now).status == 500
  {
    var fx := Fixtures([], [], [InvoiceFixture("missing", 100, "paid")], []);
    var db := EmptyDb();
    assert SeedUsers(db, fx.users) == db;
    assert SeedCustomers(db, fx.customers) == Phase(db, []);
    assert SeedInvoice(db, fx.invoices[0], now) == Failure(CustomerNotFound("missing"));
    assert SeedInvoices(db, fx.invoices[1..], now) == Phase(db, []);
  }
}

=== FILE: seqs.dfy ===
/** Searching, filtering and summing over sequences: the table scans the storage layer performs. */
module Seqs {
  import opened Wrappers

  /** Position of the first element that satisfies `p`, if any. */
  function IndexOf<T>(s: seq<T>, p: T -> bool): (r: Option<nat>)
    ensures r.Some? ==> r.value < |s| && p(s[r.value])
    ensures r.Some? ==> forall j :: 0 <= j < r.value ==> !p(s[j])
    ensures r.None? <==> forall j :: 0 <= j < |s| ==> !p(s[j])
    decreases |s|
  {
    if |s| == 0 then None
    else if p(s[0]) then Some(0)
    else
      match IndexOf(s[1..], p)
      case None => None
      case Some(i) => Some(i + 1)
  }

  /** The elements of `s` that satisfy `p`, in their original order. */
  function Filter<T>(s: seq<T>, p: T -> bool): (r: seq<T>)
    ensures |r| <= |s|
    ensures forall k :: 0 <= k < |r| ==> p(r[k]) && r[k] in s
    ensures forall k :: 0 <= k < |s| && p(s[k]) ==> s[k] in r
    ensures multiset(r) <= multiset(s)
    decreases |s|
  {
    if |s| == 0 then []
    else
      var rest := Filter(s[1..], p);
      assert s == [s[0]] + s[1..];
      if p(s[0]) then [s[0]] + rest else rest
  }

  /** `s` without the element at position `i`. */
  function RemoveAt<T>(s: seq<T>, i: nat): (r: seq<T>)
    requires i < |s|
    ensures |r| == |s| - 1
    ensures forall k :: 0 <= k < i ==> r[k] == s[k]
    ensures forall k :: i <= k < |r| ==> r[k] == s[k + 1]
  {
    s[..i] + s[i + 1..]
  }

  /** Removing position `i` keeps every other element. */
  lemma RemoveAtKeepsOthers<T>(s: seq<T>, i: nat)
    requires i < |s|
    ensures forall k :: 0 <= k < |s| && k != i ==> s[k] in RemoveAt(s, i)
  {
    var r := RemoveAt(s, i);
    forall k | 0 <= k < |s| && k != i
      ensures s[k] in r
    {
      if k < i { assert r[k] == s[k]; } else { assert r[k - 1] == s[k]; }
    }
  }

  /** Filters that agree on every element of `s` select the same subsequence. */
  lemma {:induction false} FilterCongruent<T>(s: seq<T>, p: T -> bool, q: T -> bool)
    requires forall k :: 0 <= k < |s| ==> p(s[k]) == q(s[k])
    ensures Filter(s, p) == Filter(s, q)
    decreases |s|
  {
    if |s| > 0 {
      FilterCongruent(s[1..], p, q);
    }
  }
}

=== FILE: sorting.dfy ===
/** Ordering of query results: `orderBy` of the storage layer, as a stable insertion sort. */
module Sorting {

  /** `le` is total and transitive: any two rows can be ordered, consistently. */
  ghost predicate TotalPreorder<T(!new)>(le: (T, T) -> bool) {
    && (forall a, b :: le(a, b) || le(b, a))
    && (forall a, b, c :: le(a, b) && le(b, c) ==> le(a, c))
  }

  /** Every earlier element comes before-or-with every later one. */
  predicate SortedBy<T>(s: seq<T>, le: (T, T) -> bool) {
    forall i, j :: 0 <= i < j < |s| ==> le(s[i], s[j])
  }

  /** Putting in front an element that comes before-or-with every other keeps a sequence sorted. */
  lemma PrependKeepsSorted<T>(y: T, s: seq<T>, le: (T, T) -> bool)
    requires SortedBy(s, le)
    requires forall k :: 0 <= k < |s| ==> le(y, s[k])
    ensures SortedBy([y] + s, le)
  {
    var t := [y] + s;
    forall i, j | 0 <= i < j < |t|
      ensures le(t[i], t[j])
    {
      assert t[j] == s[j - 1];
      if i > 0 {
        assert t[i] == s[i - 1];
      }
    }
  }

  function Insert<T(!new)>(x: T, s: seq<T>, le: (T, T) -> bool): (r: seq<T>)
    requires TotalPreorder(le) && SortedBy(s, le)
    ensures SortedBy(r, le)
    ensures multiset(r) == multiset(s) + multiset{x}
    decreases |s|
  {
    if |s| == 0 then [x]
    else if le(x, s[0]) then
      assert SortedBy([x] + s, le) by {
        assert forall j :: 0 < j < |s| ==> le(x, s[j]);
        PrependKeepsSorted(x, s, le);
      }
      [x] + s
    else
      var rest := Insert(x, s[1..], le);
      assert s == [s[0]] + s[1..];
      assert SortedBy([s[0]] + rest, le) by {
        forall k | 0 <= k < |rest|
          ensures le(s[0], rest[k])
        {
          assert rest[k] in multiset(rest);
          if rest[k] != x {
            assert rest[k] in multiset(s[1..]);
          }
        }
        PrependKeepsSorted(s[0], rest, le);
      }
      [s[0]] + rest
  }

  /** `s` rearranged so that it is sorted by `le`. */
  function Sort<T(!new)>(s: seq<T>, le: (T, T) -> bool): (r: seq<T>)
    requires TotalPreorder(le)
    ensures SortedBy(r, le)
    ensures multiset(r) == multiset(s)
    ensures |r| == |s|
    decreases |s|
  {
    if |s| == 0 then []
    else
      assert s == [s[0]] + s[1..];
      Insert(s[0], Sort(s[1..], le), le)
  }

  /** Lexicographic order on code points; it stands in for the collation of the name column, which may differ. */
  predicate LexLe(a: string, b: string)
    decreases |a|
  {
    if |a| == 0 then true
    else if |b| == 0 then false
    else if a[0] != b[0] then a[0] < b[0]
    else LexLe(a[1..], b[1..])
  }

  lemma {:induction false} LexLeTotal(a: string, b: string)
    ensures LexLe(a, b) || LexLe(b, a)
    decreases |a|
  {
    if |a| > 0 && |b| > 0 && a[0] == b[0] {
      LexLeTotal(a[1..], b[1..]);
    }
  }

  lemma {:induction false} LexLeTransitive(a: string, b: string, c: string)
    requires LexLe(a, b) && LexLe(b, c)
    ensures LexLe(a, c)
    decreases |a|
  {
    if |a| > 0 && |b| > 0 && |c| > 0 && a[0] == b[0] && b[0] == c[0] {
      LexLeTransitive(a[1..], b[1..], c[1..]);
    }
  }
}

=== FILE: store.dfy ===
/**
 * The four tables behind the dashboard, as one immutable database value, together with
 * the constraints the database enforces on every write and the fixed-message error
 * translation every data-access function wraps around its query.
 */
module Store {
  import opened Wrappers
  import opened Seqs

  /** Surrogate key assigned by the database on insert. */
  type Id = nat

  datatype User = User(name: string, email: string, password: string)

  datatype Customer = Customer(id: Id, uuid: string, name: string, email: string, imageUrl: string)

  /** The (customer_id, amount, status) triple invoices are upserted on. */
  datatype InvoiceKey = InvoiceKey(customerId: Id, amount: int, status: string)

  /** An invoice; `amount` is in cents and `date` is a timestamp. */
  datatype Invoice = Invoice(id: Id, customerId: Id, amount: int, status: string, date: int) {
    function Key(): InvoiceKey {
      InvoiceKey(customerId, amount, status)
    }
  }

  datatype Revenue = Revenue(month: string, revenue: int)

  /** The database: four tables in storage order, plus the next value of each id sequence. */
  datatype Db = Db(
    users: seq<User>,
    customers: seq<Customer>,
    invoices: seq<Invoice>,
    revenues: seq<Revenue>,
    nextCustomerId: Id,
    nextInvoiceId: Id)

  /** Faults the storage layer can raise for a single query. */
  datatype StoreError = RecordNotFound | UniqueViolation | ForeignKeyViolation | InvalidArgument

  /** The catch block of every data-access function: any fault becomes one fixed message. */
  function Rethrow<T>(r: Result<T, StoreError>, message: string): (t: Result<T, string>)
    ensures t.Success? <==> r.Success?
    ensures r.Success? ==> t.value == r.value
    ensures t.Failure? ==> t.error == message
  {
    match r
    case Success(v) => Success(v)
    case Failure(_) => Failure(message)
  }

  /** The pattern the listings hand to the `contains` filter: the query between `%` wildcards. */
  function Pattern(query: string): string {
    "%" + query + "%"
  }

  // ---- Constraints -------------------------------------------------------------------

  /** users.email is unique. */
  predicate UsersValid(us: seq<User>) {
    forall i, j :: 0 <= i < j < |us| ==> us[i].email != us[j].email
  }

  /** customers.id, customers.uuid and customers.email are unique, and ids come from the sequence. */
  predicate CustomersValid(cs: seq<Customer>, nextId: Id) {
    && (forall i :: 0 <= i < |cs| ==> cs[i].id < nextId)
    && (forall i, j :: 0 <= i < j < |cs| ==>
          cs[i].id != cs[j].id && cs[i].uuid != cs[j].uuid && cs[i].email != cs[j].email)
  }

  predicate HasCustomer(cs: seq<Customer>, id: Id) {
    exists k :: 0 <= k < |cs| && cs[k].id == id
  }

  /** invoices.id and the invoice key are unique, and every invoice refers to an existing customer. */
  predicate InvoicesValid(invs: seq<Invoice>, cs: seq<Customer>, nextId: Id) {
    && (forall i :: 0 <= i < |invs| ==> invs[i].id < nextId && HasCustomer(cs, invs[i].customerId))
    && (forall i, j :: 0 <= i < j < |invs| ==> invs[i].id != invs[j].id && invs[i].Key() != invs[j].Key())
  }

  /** (month, revenue), the whole row, is unique. */
  predicate RevenuesValid(rs: seq<Revenue>) {
    forall i, j :: 0 <= i < j < |rs| ==> rs[i] != rs[j]
  }

  predicate Valid(db: Db) {
    && UsersValid(db.users)
    && CustomersValid(db.customers, db.nextCustomerId)
    && InvoicesValid(db.invoices, db.customers, db.nextInvoiceId)
    && RevenuesValid(db.revenues)
  }

  function EmptyDb(): (db: Db)
    ensures Valid(db)
    ensures db.users == [] && db.customers == [] && db.invoices == [] && db.revenues == []
  {
    Db([], [], [], [], 0, 0)
  }

  /** Customer rows with the same ids in the same places satisfy the same invoice references. */
  lemma SameIdsKeepReferences(invs: seq<Invoice>, cs: seq<Customer>, cs': seq<Customer>, nextId: Id)
    requires |cs'| == |cs| && forall k :: 0 <= k < |cs| ==> cs'[k].id == cs[k].id
    requires InvoicesValid(invs, cs, nextId)
    ensures InvoicesValid(invs, cs', nextId)
  {
    forall i | 0 <= i < |invs|
      ensures HasCustomer(cs', invs[i].customerId)
    {
      var k :| 0 <= k < |cs| && cs[k].id == invs[i].customerId;
      assert cs'[k].id == invs[i].customerId;
    }
  }

  /** Replacing one customer by a row with the same id and an unused uuid and email keeps the database valid. */
  lemma ReplaceCustomerKeepsValid(db: Db, i: nat, c: Customer)
    requires Valid(db) && i < |db.customers| && c.id == db.customers[i].id
    requires forall j :: 0 <= j < |db.customers| && j != i ==>
      db.customers[j].uuid != c.uuid && db.customers[j].email != c.email
    ensures Valid(db.(customers := db.customers[i := c]))
  {
    SameIdsKeepReferences(db.invoices, db.customers, db.customers[i := c], db.nextInvoiceId);
  }

  /** Inserting a customer keeps every invoice reference satisfied. */
  lemma AppendKeepsReferences(invs: seq<Invoice>, cs: seq<Customer>, c: Customer, nextId: Id)
    requires InvoicesValid(invs, cs, nextId)
    ensures InvoicesValid(invs, cs + [c], nextId)
  {
    forall i | 0 <= i < |invs|
      ensures HasCustomer(cs + [c], invs[i].customerId)
    {
      var k :| 0 <= k < |cs| && cs[k].id == invs[i].customerId;
      assert (cs + [c])[k].id == invs[i].customerId;
    }
  }

  /** Replacing one invoice by a row with the same id, a fresh key and an existing customer keeps the table valid. */
  lemma ReplaceInvoiceKeepsValid(db: Db, i: nat, row: Invoice)
    requires Valid(db) && i < |db.invoices|
    requires row.id == db.invoices[i].id && HasCustomer(db.customers, row.customerId)
    requires forall j :: 0 <= j < |db.invoices| && j != i ==> db.invoices[j].Key() != row.Key()
    ensures Valid(db.(invoices := db.invoices[i := row]))
  {
  }

  /** Appending a row with the next id, a fresh key and an existing customer keeps the table valid. */
  lemma AppendInvoiceKeepsValid(db: Db, row: Invoice)
    requires Valid(db)
    requires row.id == db.nextInvoiceId && HasCustomer(db.customers, row.customerId)
    requires forall j :: 0 <= j < |db.invoices| ==> db.invoices[j].Key() != row.Key()
    ensures Valid(db.(invoices := db.invoices + [row], nextInvoiceId := db.nextInvoiceId + 1))
  {
    var invs := db.invoices + [row];
    forall a | 0 <= a < |invs|
      ensures invs[a].id < db.nextInvoiceId + 1 && HasCustomer(db.customers, invs[a].customerId)
    {
      if a < |db.invoices| { assert invs[a] == db.invoices[a]; }
    }
  }

  /** Removing one invoice keeps the table valid; every remaining row is an old row with another id. */
  lemma RemoveInvoiceKeepsValid(db: Db, i: nat)
    requires Valid(db) && i < |db.invoices|
    ensures var rest := RemoveAt(db.invoices, i);
      && Valid(db.(invoices := rest))
      && (forall k :: 0 <= k < |rest| ==> rest[k].id != db.invoices[i].id && rest[k] in db.invoices)
      && (forall k :: 0 <= k < |db.invoices| && k != i ==> db.invoices[k] in rest)
  {
    var invs := db.invoices;
    var rest := RemoveAt(invs, i);
    RemoveAtKeepsOthers(invs, i);
    forall k | 0 <= k < |rest|
      ensures rest[k] == invs[if k < i then k else k + 1]
    {
    }
    forall a, b | 0 <= a < b < |rest|
      ensures rest[a].id != rest[b].id && rest[a].Key() != rest[b].Key()
    {
      var a' := if a < i then a else a + 1;
      var b' := if b < i then b else b + 1;
      assert rest[a] == invs[a'] && rest[b] == invs[b'] && a' < b';
    }
  }

  // ---- Lookups on unique columns ------------------------------------------------------

  function CustomerIndexById(cs: seq<Customer>, id: Id): (r: Option<nat>)
    ensures r.Some? ==> r.value < |cs| && cs[r.value].id == id
    ensures r.None? <==> !HasCustomer(cs, id)
  {
    IndexOf(cs, (c: Customer) => c.id == id)
  }

  function CustomerIndexByUuid(cs: seq<Customer>, uuid: string): (r: Option<nat>)
    ensures r.Some? ==> r.value < |cs| && cs[r.value].uuid == uuid
    ensures r.None? <==> forall k :: 0 <= k < |cs| ==> cs[k].uuid != uuid
  {
    IndexOf(cs, (c: Customer) => c.uuid == uuid)
  }

  function CustomerIndexByEmail(cs: seq<Customer>, email: string): (r: Option<nat>)
    ensures r.Some? ==> r.value < |cs| && cs[r.value].email == email
    ensures r.None? <==> forall k :: 0 <= k < |cs| ==> cs[k].email != email
  {
    IndexOf(cs, (c: Customer) => c.email == email)
  }

  function InvoiceIndexById(invs: seq<Invoice>, id: Id): (r: Option<nat>)
    ensures r.Some? ==> r.value < |invs| && invs[r.value].id == id
    ensures r.None? <==> forall k :: 0 <= k < |invs| ==> invs[k].id != id
  {
    IndexOf(invs, (inv: Invoice) => inv.id == id)
  }

  function InvoiceIndexByKey(invs: seq<Invoice>, key: InvoiceKey): (r: Option<nat>)
    ensures r.Some? ==> r.value < |invs| && invs[r.value].Key() == key
    ensures r.None? <==> forall k :: 0 <= k < |invs| ==> invs[k].Key() != key
  {
    IndexOf(invs, (inv: Invoice) => inv.Key() == key)
  }

  function UserIndexByEmail(us: seq<User>, email: string): (r: Option<nat>)
    ensures r.Some? ==> r.value < |us| && us[r.value].email == email
    ensures r.None? <==> forall k :: 0 <= k < |us| ==> us[k].email != email
  {
    IndexOf(us, (u: User) => u.email == email)
  }

  /** The customer row an invoice's foreign key points at (the `include: {customer: true}` join). */
  function CustomerOf(cs: seq<Customer>, id: Id): (r: Option<Customer>)
    ensures r.Some? <==> HasCustomer(cs, id)
    ensures r.Some? ==> r.value in cs && r.value.id == id
  {
    match CustomerIndexById(cs, id)
    case Some(k) => Some(cs[k])
    case None => None
  }

  // ---- Amounts -------------------------------------------------------------------------

  /** Sum of the amounts of `invs`, in cents. */
  function TotalAmount(invs: seq<Invoice>): int
    decreases |invs|
  {
    if |invs| == 0 then 0 else invs[0].amount + TotalAmount(invs[1..])
  }

  /** `status === "paid"`, the test that splits a customer's invoices in the listing. */
  predicate IsPaid(inv: Invoice) {
    inv.status == "paid"
  }

  predicate IsNotPaid(inv: Invoice) {
    inv.status != "paid"
  }

  /** Paid and unpaid amounts add up to the total, whatever the other statuses are. */
  lemma {:induction false} PaidAndUnpaidCoverTotal(invs: seq<Invoice>)
    ensures TotalAmount(Filter(invs, IsPaid)) + TotalAmount(Filter(invs, IsNotPaid)) == TotalAmount(invs)
    decreases |invs|
  {
    if |invs| > 0 {
      PaidAndUnpaidCoverTotal(invs[1..]);
      var p := Filter(invs[1..], IsPaid);
      var q := Filter(invs[1..], IsNotPaid);
      if IsPaid(invs[0]) {
        assert ([invs[0]] + p)[1..] == p;
      } else {
        assert ([invs[0]] + q)[1..] == q;
      }
    }
  }
}

=== FILE: users.dfy ===
/** The user table: lookup by email and the upsert the seeding routine uses. */
module Users {
  import opened Wrappers
  import opened Seqs
  import opened Store

  predicate EmailTaken(us: seq<User>, email: string) {
    exists k :: 0 <= k < |us| && us[k].email == email
  }

  /** Only the user table may differ between `db` and `db'`. */
  predicate OnlyUsersChanged(db: Db, db': Db) {
    && db'.customers == db.customers
    && db'.invoices == db.invoices
    && db'.revenues == db.revenues
    && db'.nextCustomerId == db.nextCustomerId
    && db'.nextInvoiceId == db.nextInvoiceId
  }

  /** getUserByEmail: the user with this email, if there is one. */
  function GetUserByEmail(db: Db, email: string): (r: Option<User>)
    ensures r.Some? <==> EmailTaken(db.users, email)
    ensures r.Some? ==> r.value in db.users && r.value.email == email
  {
    match UserIndexByEmail(db.users, email)
    case Some(i) => Some(db.users[i])
    case None => None
  }

  /** The seeding upsert on email: an existing user gets the new name and keeps its password; otherwise the user is inserted. */
  function UpsertUser(db: Db, u: User): (r: Db)
    requires Valid(db)
    ensures Valid(r) && OnlyUsersChanged(db, r)
    ensures EmailTaken(db.users, u.email) ==>
      && |r.users| == |db.users|
      && forall i :: 0 <= i < |db.users| ==>
           r.users[i] == if db.users[i].email == u.email then db.users[i].(name := u.name) else db.users[i]
    ensures !EmailTaken(db.users, u.email) ==> r.users == db.users + [u]
  {
    match UserIndexByEmail(db.users, u.email)
    case Some(i) => db.(users := db.users[i := db.users[i].(name := u.name)])
    case None => db.(users := db.users + [u])
  }
}

=== FILE: wrappers.dfy ===
/** An optional value and a success-or-error result. */
module Wrappers {

  datatype Option<+T> = None | Some(value: T) {

    /** The wrapped value, or `default` when there is none (the `??` operator). */
    function GetOr(default: T): T {
      match this
      case Some(v) => v
      case None => default
    }
  }

  datatype Result<+T, +E> = Success(value: T) | Failure(error: E)
}
